=== FILE: README.md ===
# ChemViz detailed report and account registration, in Dafny

This project models the two pieces of logic in the ChemViz equipment
analytics backend.

**The detailed report endpoint** (`generate_pdf_report`) takes an upload
summary, a list of earlier uploads and a user name, and appends flowables to
a ReportLab document. The model treats that document as a sequence of
abstract blocks: `Paragraph(style, spans)`, `Table(header, rows)`, `Spacer`
and `PageBreak`. The report is a pure function from the request and its
surroundings to that sequence. The proofs cover the document's structure
and the data it shows:

- four pages at three page breaks, each page built from the request after
  defaulting;
- seven section headings in a fixed order;
- defaults for every missing key;
- a distribution table sorted by label, with guarded percentages that add up
  to 100;
- a history table capped at ten rows;
- a JSON appendix cut to fifty lines, with its spaces made non-breaking;
- five numbered recommendations;
- a download name that records the instant to the second.

**The registration endpoint** (`create_user`) is a transition on the set of
registered user names.

Modules, in dependency order:

| file | module | contents |
|---|---|---|
| wrappers.dfy | Wrappers | `Option` |
| sequences.dfy | Sequences | Python's `split`, `join`, `s[:n]` and counting on sequences |
| strings.dfy | Strings | `str()` of integers and its inverse, Python's string order, the `&nbsp;` substitution |
| clock.dfy | Clock | calendar instants, the title-page stamp, the download filename and its parser |
| wording.dfy | Wording | the fixed sentences of the report, by name |
| document.dfy | Document | blocks, pages, headings, well-formed tables, sections |
| inputs.dfy | Inputs | the request body and its defaults |
| metrics.dfy | Metrics | sorted labels, the count total, distribution entries and percentages |
| sections.dfy | Sections | the title page and the seven sections |
| composer.dfy | Composer | the whole document, the endpoint, and the facts about the whole |
| accounts.dfy | Accounts | `create_user` |

Things the endpoint reads from outside become parameters of
`Composer.Environment`:

- the authenticated user's name;
- the two readings of `datetime.now()`, one for the title page and one for
  the filename;
- the text `json.dumps(results, indent=2)`.

## Model

| member | source | states |
|---|---|---|
| Inputs.Normalize | backend/equipment/views.py:104-107 | A missing `results` counts as `{}`, a missing `history` as `[]`, and a missing `username` as the authenticated user. Each summary key read at lines 217, 230-232 and 265 defaults to 0 or `{}`, and each value that is present is used unchanged. |
| Inputs.EmptyRequestDefaults | backend/equipment/views.py:104-107 | An empty request body gives the all-zero summary, no history, and the requester as preparer. |
| Sections.MetadataBlock | backend/equipment/views.py:203-208 | The metadata paragraph shows the stamp right after "Generated:", the preparer right after "Prepared by:", and the product version last. |
| Sections.CoverPage | backend/equipment/views.py:186-209 | The title page has no heading and no page break. It ends with the metadata paragraph for this page's clock reading and preparer. |
| Clock.Hour12 | backend/equipment/views.py:204 | `%I` is between 1 and 12 and agrees with the 24-hour hour modulo 12. |
| Clock.TwelveHourClockFaithful | backend/equipment/views.py:204 | `%I` together with `%p` determines the 24-hour hour, so the stamp loses nothing about the hour. |
| Clock.MonthNumber | backend/equipment/views.py:204 | `%B` read back: a name that is recognised is the name of exactly the month returned. |
| Clock.MonthNamesDistinct | backend/equipment/views.py:204 | Every month's `%B` name reads back as that month, so no two months share a name. |
| Clock.DateText | backend/equipment/views.py:204 | `%d, %Y` is 8 characters: the zero-padded day, ", ", then the four-digit year. |
| Clock.TimeText | backend/equipment/views.py:204 | `%I:%M %p` is 8 characters: the zero-padded 12-hour hour, ':', the zero-padded minute, a space, and AM or PM. |
| Clock.ClockText | backend/equipment/views.py:204 | After the month name, the stamp is 20 characters: the date text, " at ", then the time text. |
| Clock.GeneratedStamp | backend/equipment/views.py:204 | The "Generated:" stamp is the month's full name, a space, then that clock text. |
| Clock.ClockTextFaithful | backend/equipment/views.py:204 | Equal clock texts mean equal day, year, hour and minute. |
| Clock.GeneratedStampFaithful | backend/equipment/views.py:204 | Two instants with the same stamp agree on year, month, day, hour and minute: the stamp identifies the instant to the minute. |
| Sections.ExecutiveSummary | backend/equipment/views.py:214-225 | The section is its heading followed by blocks that are neither headings nor page breaks. |
| Sections.ExecutiveSummaryShowsTotal | backend/equipment/views.py:217-221 | The summary sentence shows `total_equipment` between its two fixed sentences, and the text parses back to that number. |
| Sections.MetricsTable | backend/equipment/views.py:235-241 | The table has the header and exactly four rows. Labels and status strings are fixed whatever the data. The value column shows the total and the three averages with their units. |
| Strings.IntToStringRoundTrip | backend/equipment/views.py:237 | `str()` on integers is injective: parsing the text gives the number back. |
| Sections.KeyMetrics | backend/equipment/views.py:227-260 | The section is exactly three blocks: its heading, the metrics table for the summary, and a spacer. It is well formed. |
| Metrics.SortedLabels | backend/equipment/views.py:276 | The distribution's labels appear once each, ascending in Python's string order. |
| Strings.LessIrreflexive | backend/equipment/views.py:276 | No string sorts before itself in Python's code-point order. |
| Strings.LessTransitive | backend/equipment/views.py:276 | Python's string order is transitive. |
| Strings.LessTotal | backend/equipment/views.py:276 | Of two different strings, one sorts before the other, so `sorted` has one answer. |
| Metrics.Total | backend/equipment/views.py:272 | `total` is the sum of the map's own counts. |
| Metrics.Percentage | backend/equipment/views.py:277 | With a positive total, the percentage times the total is 100 times the count. Otherwise it is 0, and no division happens. |
| Metrics.Entries | backend/equipment/views.py:271-278 | There is one entry per key of the map, with no other labels. Labels strictly ascend. Each entry carries its key's count and the share of that count in the map's sum. |
| Metrics.EntriesOfKinds | backend/equipment/views.py:276-278 | The loop visits the sorted labels, and the rows follow exactly that order. |
| Metrics.PercentagesSum | backend/equipment/views.py:272-277 | When the counts add up to a positive number, the percentages add up to exactly 100. Otherwise every percentage is 0 and no division happens. |
| Sections.DistributionTable | backend/equipment/views.py:275-280 | The distribution table has its three-column header and one well-formed row per key. |
| Sections.DistributionRowCells | backend/equipment/views.py:276-278 | Row i shows a key of the map, that key's count, and the count's percentage of the map's sum. |
| Sections.DistributionRowsSorted | backend/equipment/views.py:276 | The table rows ascend strictly by label. |
| Sections.DistributionRowsCover | backend/equipment/views.py:276-278 | Every key of the map has a row. |
| Sections.DistributionSection | backend/equipment/views.py:267-297 | The section holds a table exactly when the map is non-empty, and the table follows the introductory sentence. |
| Sections.DistributionFallback | backend/equipment/views.py:296-299 | An empty map gives exactly the heading, the fallback sentence and the spacer. |
| Sections.Distribution | backend/equipment/views.py:262-299 | The section is its heading followed by plain blocks, and its table is well formed. |
| Sections.TechnicalAnalysis | backend/equipment/views.py:301-333 | The section is its heading followed by plain blocks, and it ends with the pressure paragraph. |
| Sections.PeakFlowrate | backend/equipment/views.py:308 | The estimated peak lies a fifth above the average flowrate. |
| Sections.FlowrateFigures | backend/equipment/views.py:305-312 | The flowrate subsection shows the average flowrate, then the estimated peak, each to two places. |
| Sections.TemperatureFigures | backend/equipment/views.py:316-324 | The temperature subsection shows the average temperature, not another average. |
| Sections.PressureFigures | backend/equipment/views.py:327-333 | The pressure subsection, last in the section, shows the average pressure. |
| Sections.HistoryRow | backend/equipment/views.py:348-354 | A row has five cells. A missing time shows "N/A" and a missing number shows 0; present values are shown as given. Pressure comes before temperature. |
| Sections.HistoryRows | backend/equipment/views.py:347-354 | The table has min(\|history\|, 10) rows, and row i is record i. |
| Sections.HistorySection | backend/equipment/views.py:341-383 | The section holds a table exactly when the history is non-empty. The introduction counts every upload, and the count parses back to \|history\|. The introduction's fixed text surrounds the count. The table shows the first ten records in the given order, followed by a spacer and the trend paragraph. An empty history gives exactly the heading, the fallback sentence and the spacer. |
| Sections.HistoricalTrends | backend/equipment/views.py:338-385 | The section is its heading followed by plain blocks, and its table is well formed. |
| Sections.Numbered | backend/equipment/views.py:398-400 | Line i is `str(start + i)`, then `". "`, then item i. |
| Sections.RecommendationsNumbered | backend/equipment/views.py:388-400 | After the heading come exactly five paragraphs numbered "1. " to "5. ", in list order. |
| Sections.Recommendations | backend/equipment/views.py:387-400 | The section is its heading followed by plain blocks. |
| Sequences.Split | backend/equipment/views.py:422 | `split` gives at least one piece, and no piece holds the separator. |
| Sequences.Take | backend/equipment/views.py:422 | `s[:n]` is the prefix of s of length min(\|s\|, n). |
| Sequences.SplitLength | backend/equipment/views.py:422 | A text with k newlines splits into k + 1 lines. |
| Sequences.JoinSplit | backend/equipment/views.py:422 | Joining the split lines with newlines gives back the text. |
| Sequences.SplitJoin | backend/equipment/views.py:422 | Splitting newline-free lines joined by newlines gives back the lines. |
| Sections.AppendixSourceLines | backend/equipment/views.py:422 | The kept lines are the first min(L, 50) lines of the dump, where L is its line count. |
| Strings.ReplaceSpaces | backend/equipment/views.py:423 | No space survives. A single space becomes `&nbsp;`, and any other single character stays as it is. |
| Strings.ReplaceSpacesAppend | backend/equipment/views.py:423 | The substitution works piece by piece: substituting a + b gives the substitution of a followed by that of b. With the single-character case, this fixes the result on every line. |
| Strings.ReplaceSpacesLength | backend/equipment/views.py:423 | Each space adds five characters to the line. |
| Strings.RestoreReplaceSpaces | backend/equipment/views.py:423 | For a line without `&`, turning the entities back into spaces restores the line. |
| Sections.AppendixLines | backend/equipment/views.py:422-423 | There is one code paragraph per kept line. Paragraph i is line i with its spaces replaced. |
| Sections.Appendix | backend/equipment/views.py:405-434 | The section is its heading followed by plain blocks, and it ends with the footer. Between the caption and the closing spacer lie exactly the code paragraphs of the kept lines. |
| Sections.AppendixSection | backend/equipment/views.py:405-427 | The appendix is the kept lines plus four blocks, with no truncation marker. The caption "Complete JSON Output:" follows the heading, and a spacer precedes the footer. Block i + 2 is a code paragraph holding kept line i with every space replaced by `&nbsp;`, so no code paragraph holds a space. |
| Sections.AppendixRestoresLines | backend/equipment/views.py:422-423 | For a dump without `&`, the appendix's code paragraphs give back exactly the kept lines. |
| Sections.AppendixRecoversJson | backend/equipment/views.py:410-423 | A dump of at most fifty lines without `&` is recovered whole from the appendix. |
| Composer.AnalysisPage | backend/equipment/views.py:214-333 | The second page is the executive summary, the key metrics (the metrics table at block 4), the distribution section and the technical analysis, each built from the summary, in that order. |
| Composer.TrendsPage | backend/equipment/views.py:338-400 | The third page is the history section for the given uploads, followed by the recommendations. |
| Composer.AnalysisSectionsShape | backend/equipment/views.py:214-333 | Four sections with the first four titles, appended, hold those headings in order and no page break. |
| Composer.AnalysisPageShape | backend/equipment/views.py:214-333 | The second page has no break. It holds the first four headings in order and ends with the pressure paragraph. |
| Composer.TrendsSectionsShape | backend/equipment/views.py:338-400 | The history and recommendations sections, appended, hold those two headings in order, no page break and only well-formed tables. |
| Composer.TrendsPageShape | backend/equipment/views.py:338-400 | The third page has no break and holds the history and recommendations headings in order. |
| Composer.AppendixShape | backend/equipment/views.py:405-434 | The last page is the appendix alone, from its heading to the footer. |
| Composer.Compose | backend/equipment/views.py:186-434 | For every input the document has exactly three page breaks: after the title metadata, after the pressure analysis, and before the appendix. It splits into exactly those four pages. |
| Composer.ReportHeadings | backend/equipment/views.py:215-406 | For every request, the section headings are the seven titles, in order, once each. |
| Composer.ReportTablesWellFormed | backend/equipment/views.py:235-371 | Every table row has as many cells as its header, for every request. |
| Composer.EmptyRequestReport | backend/equipment/views.py:104-383 | The document generated for an empty request has four pages. The title page names the requester as preparer. The summary sentence and the metrics table show 0. The distribution and history sections are exactly heading, fallback sentence and spacer. |
| Composer.EmptyAnalysisPage | backend/equipment/views.py:215-299 | With the all-zero summary, the analysis page shows 0 in the summary sentence and the total cell, and the distribution fallback. |
| Clock.Filename | backend/equipment/views.py:446 | The name is 34 characters: the prefix, the zero-padded date fields, `_`, the time fields, and `.pdf`. |
| Clock.FilenameRoundTrip | backend/equipment/views.py:446 | Parsing the filename gives the instant back. |
| Clock.ParseFilenameExact | backend/equipment/views.py:446 | Every string the parser accepts is the filename of the instant it yields. |
| Composer.Generate | backend/equipment/views.py:102-446 | The document's four pages are the title page for the defaulted user name and the first clock reading, the analysis page for the defaulted summary, the trends page for the defaulted history, and the appendix of the JSON dump. The suggested filename parses back to the second clock reading. |
| Accounts.CreateUser | backend/equipment/views.py:474-485 | The status is 400 with the missing-credentials error exactly when a name or password is absent or empty. It is 400 with the already-exists error exactly when the name is taken. Otherwise it is 200, and exactly that name is added. A 400 leaves the set unchanged. |
| Accounts.CreateUserKeepsNames | backend/equipment/views.py:478-484 | Registration never removes a name and adds at most one. It keeps every registered name non-empty. |
| Accounts.CreateUserTwice | backend/equipment/views.py:481-482 | Registering a name a second time fails and changes nothing, whatever the password. |

## Left out

- Layout: ReportLab styles, page size, margins, column widths and table
  styling. A style is an opaque tag on a paragraph, and `doc.build` is not
  modelled.
- Sections.MetricsTable: a formatted number (`:.2f`, `:.1f`) is kept as the
  span `Fixed(x, places)`. The rounding to decimals is not modelled, because
  it is floating-point formatting.
- Metrics.PercentagesSum: percentages and the peak estimate
  `avg_flowrate * 1.2` are exact reals. The sum is exactly 100 here; with
  floats and one-decimal display it holds only up to rounding. The
  percentages divide by `sum(type_dist.values())`, not by `total_equipment`,
  so the sum is stated for the distribution's own counts.
- Paragraph text: the indented triple-quoted strings are kept with their
  whitespace collapsed to single spaces, as the renderer shows them.
  Inline markup (`<b>`, `<br/>`, `<font>`) becomes spans.
- Markup escaping: ReportLab parses paragraph text as markup. A `<` or `&`
  in a user name or the JSON dump is not modelled, which is why the appendix
  recovery lemmas require a dump without `&`. Table cells are plain strings
  and need no escaping.
- Inputs.Normalize: keys are either missing or of the expected type. A JSON
  `null` is not modelled, and it does not always fail:
  - a null `username`, summary `total_equipment`, history `time` or history
    `total_equipment` renders as the text "None" (views.py:205, 220, 237,
    349-350);
  - a null `type_distribution` or `history` is falsy and takes the fallback
    branch (views.py:267, 341);
  - the input raises and reaches the `except` handler only in these cases:
    a null `results` (the `.get` at views.py:217), a null average (`:.2f` at
    views.py:238-240, 351-353), a null element of `history` (`item.get` at
    views.py:349), or a null count in `type_distribution` (`sum` at
    views.py:272).
  The model cannot express "Prepared by: None" or a "None" count. A value of
  another type is not modelled either.
- The HTTP response, the in-memory buffer and the `except`/traceback
  handler that returns status 500.
- `json.dumps(results, indent=2)` is a parameter, as is `datetime.now()`:
  two separate instants, one for the title page and one for the filename.
- Clock.GeneratedStamp and Clock.Filename: `%Y` is written as four
  zero-padded digits, and month names follow the C locale. A platform whose
  `strftime` does not pad years below 1000 would differ for those years.
- Accounts.CreateUser: the password is handed to the account store and
  never read back, so the state is the set of names only. Password hashing
  and the ORM are not modelled. Names are compared exactly as given. Django
  NFKC-normalises a username before it is stored, so "ﬁ" and "fi" name the
  same account there: the model answers 200 for the second, while the
  database's unique constraint makes the endpoint answer 500. The lookup at
  views.py:481 and the insert at views.py:484 are not atomic, so two
  concurrent registrations of one name can both pass the lookup, and the
  second insert answers 500. The model is sequential. The name and password
  are typed `Option<string>`, so a JSON number or list cannot be expressed:
  a numeric password, for instance, passes the truthiness test at
  views.py:478, and Django's `make_password` then rejects it with a
  `TypeError`, which answers 500.
- `add_page_number` (views.py:73-93): the endpoint adds no page numbers,
  because `add_page_number` is never called.
- `upload_csv`, `history`, `login_view`, the model declaration, and the web
  and desktop clients are outside this model.

=== FILE: accounts.dfy ===
/** Account registration: the `create_user` endpoint as a transition on
    the set of registered usernames. Passwords are handed to the account
    store and never read back, so the state keeps usernames only. */
module Accounts {

  import opened Wrappers

  /** The JSON body of the reply: a message on success, an error otherwise. */
  datatype Body = Message(text: string) | Error(text: string)

  datatype Reply = Reply(status: nat, body: Body)

  const MissingCredentials: string := "Username and password required"
  const AlreadyExists: string := "User already exists"
  const Created: string := "User created successfully"

  /** Python truthiness of an optional string field: absent and empty are
      both false. */
  predicate Truthy(field: Option<string>) {
    field.Some? && |field.value| > 0
  }

  /** Registers `username` with `password` unless either is missing or
      empty (400), or the name is taken (400); returns the reply and the
      registered names afterwards. */
  function CreateUser(users: set<string>, username: Option<string>, password: Option<string>)
    : (out: (Reply, set<string>))
    ensures out.0.status == 200 || out.0.status == 400
    ensures out.0.status == 200 <==> Truthy(username) && Truthy(password) && username.value !in users
    ensures out.0 == Reply(400, Error(MissingCredentials)) <==> !Truthy(username) || !Truthy(password)
    ensures out.0 == Reply(400, Error(AlreadyExists)) <==>
      Truthy(username) && Truthy(password) && username.value in users
    ensures out.0.status == 200 ==> out.0.body == Message(Created) && out.1 == users + {username.value}
    ensures out.0.status == 400 ==> out.1 == users
  {
    if !Truthy(username) || !Truthy(password) then
      (Reply(400, Error(MissingCredentials)), users)
    else if username.value in users then
      (Reply(400, Error(AlreadyExists)), users)
    else
      (Reply(200, Message(Created)), users + {username.value})
  }

  /** No registered name is empty. */
  predicate NamesGiven(users: set<string>) {
    forall u :: u in users ==> |u| > 0
  }

  /** Registration keeps every registered name non-empty, adds at most one
      name, and never removes one. */
  lemma CreateUserKeepsNames(users: set<string>, username: Option<string>, password: Option<string>)
    requires NamesGiven(users)
    ensures NamesGiven(CreateUser(users, username, password).1)
    ensures users <= CreateUser(users, username, password).1
    ensures |CreateUser(users, username, password).1| <= |users| + 1
  {
  }

  /** Registering a name twice fails the second time, whatever the
      passwords, and the second attempt changes nothing. */
  lemma CreateUserTwice(users: set<string>, name: string, first: string, second: string)
    requires |name| > 0 && |first| > 0 && |second| > 0
    ensures var after := CreateUser(users, Some(name), Some(first)).1;
      name in after
      && CreateUser(after, Some(name), Some(second)) == (Reply(400, Error(AlreadyExists)), after)
  {
  }
}

=== FILE: clock.dfy ===
/** The two uses of the current instant in the report: the "Generated:"
    line of the title page (`strftime('%B %d, %Y at %I:%M %p')`) and the
    download filename (`ChemViz_Report_%Y%m%d_%H%M%S.pdf`). The clock itself
    is not modelled; an instant is a parameter. */
module Clock {

  import opened Strings
  import opened Wrappers
  import opened Sequences

  /** A calendar instant at one-second resolution, as Python's `datetime`
      holds it. */
  datatype Instant = Instant(year: nat, month: nat, day: nat, hour: nat, minute: nat, second: nat)

  predicate IsLeapYear(year: int) {
    year % 4 == 0 && (year % 100 != 0 || year % 400 == 0)
  }

  function DaysInMonth(year: int, month: int): nat
    requires 1 <= month <= 12
  {
    if month == 2 then (if IsLeapYear(year) then 29 else 28)
    else if month in {4, 6, 9, 11} then 30
    else 31
  }

  /** The instants Python's `datetime` can represent. */
  predicate Valid(t: Instant) {
    && 1 <= t.year <= 9999
    && 1 <= t.month <= 12
    && 1 <= t.day <= DaysInMonth(t.year, t.month)
    && 0 <= t.hour < 24
    && 0 <= t.minute < 60
    && 0 <= t.second < 60
  }

  // ---------------------------------------------------------------------
  // "%B %d, %Y at %I:%M %p" in the C locale
  // ---------------------------------------------------------------------

  const MonthNames: seq<string> := [
    "January", "February", "March", "April", "May", "June",
    "July", "August", "September", "October", "November", "December"
  ]

  /** `%I`: the hour on a twelve-hour clock, 12 standing for 0. */
  function Hour12(hour: int): (h: int)
    requires 0 <= hour < 24
    ensures 1 <= h <= 12
    ensures h % 12 == hour % 12
  {
    if hour % 12 == 0 then 12 else hour % 12
  }

  /** `%p` in the C locale. */
  function Meridiem(hour: int): string
    requires 0 <= hour < 24
  {
    if hour < 12 then "AM" else "PM"
  }

  /** The twelve-hour reading together with its AM/PM marker identifies the
      twenty-four-hour hour: the title-page stamp loses no information about
      the hour. */
  lemma TwelveHourClockFaithful(hour: int)
    requires 0 <= hour < 24
    ensures hour == Hour12(hour) % 12 + (if Meridiem(hour) == "PM" then 12 else 0)
  {
  }

  /** `%B` read back: the month a name stands for, `None` for any other
      string. */
  function MonthNumber(name: string): (m: Option<nat>)
    ensures m.Some? ==> 1 <= m.value <= 12 && MonthNames[m.value - 1] == name
  {
    if name == "January" then Some(1) else if name == "February" then Some(2)
    else if name == "March" then Some(3) else if name == "April" then Some(4)
    else if name == "May" then Some(5) else if name == "June" then Some(6)
    else if name == "July" then Some(7) else if name == "August" then Some(8)
    else if name == "September" then Some(9) else if name == "October" then Some(10)
    else if name == "November" then Some(11) else if name == "December" then Some(12)
    else None
  }

  /** Every month name reads back as its own month, so no two months share
      a name. */
  lemma MonthNamesDistinct(month: nat)
    requires 1 <= month <= 12
    ensures MonthNumber(MonthNames[month - 1]) == Some(month)
  {
  }

  /** `%d, %Y`: eight characters, day and year zero-padded. */
  function DateText(t: Instant): (s: string)
    requires Valid(t)
    ensures |s| == 8 && s[2..4] == ", "
    ensures s[0..2] == FixedDigits(t.day, 2) && s[4..8] == FixedDigits(t.year, 4)
  {
    FixedDigits(t.day, 2) + ", " + FixedDigits(t.year, 4)
  }

  /** `%I:%M %p`: eight characters, hour and minute zero-padded. */
  function TimeText(t: Instant): (s: string)
    requires Valid(t)
    ensures |s| == 8 && s[2] == ':' && s[5] == ' '
    ensures s[0..2] == FixedDigits(Hour12(t.hour), 2) && s[3..5] == FixedDigits(t.minute, 2)
    ensures s[6..] == Meridiem(t.hour)
  {
    FixedDigits(Hour12(t.hour), 2) + ":" + FixedDigits(t.minute, 2) + " " + Meridiem(t.hour)
  }

  /** The stamp after the month name, `%d, %Y at %I:%M %p`: twenty
      characters, the date and the time around " at ". */
  function ClockText(t: Instant): (s: string)
    requires Valid(t)
    ensures |s| == 20 && s[..8] == DateText(t) && s[8..12] == " at " && s[12..] == TimeText(t)
  {
    DateText(t) + " at " + TimeText(t)
  }

  /** The "Generated:" value of the title page: the month's full name, a
      space, then the fixed-width clock text. */
  function GeneratedStamp(t: Instant): (r: string)
    requires Valid(t)
    ensures var name := MonthNames[t.month - 1];
      |r| == |name| + 21 && r[..|name|] == name && r[|name|] == ' '
      && r[|name| + 1..] == ClockText(t)
  {
    var name := MonthNames[t.month - 1];
    assert (name + " " + ClockText(t))[|name| + 1..] == ClockText(t);
    name + " " + ClockText(t)
  }

  /** The clock text identifies day, year, hour and minute. */
  lemma ClockTextFaithful(t1: Instant, t2: Instant)
    requires Valid(t1) && Valid(t2)
    requires ClockText(t1) == ClockText(t2)
    ensures t1.year == t2.year && t1.day == t2.day
    ensures t1.hour == t2.hour && t1.minute == t2.minute
  {
    var d1, d2 := DateText(t1), DateText(t2);
    var h1, h2 := TimeText(t1), TimeText(t2);
    assert d1 == ClockText(t1)[..8] == d2;
    assert h1 == ClockText(t1)[12..] == h2;
    assert Pow10(4) == 10000 && Pow10(2) == 100;
    FixedDigitsValue(t1.day, 2);
    FixedDigitsValue(t2.day, 2);
    FixedDigitsValue(t1.year, 4);
    FixedDigitsValue(t2.year, 4);
    FixedDigitsValue(Hour12(t1.hour), 2);
    FixedDigitsValue(Hour12(t2.hour), 2);
    FixedDigitsValue(t1.minute, 2);
    FixedDigitsValue(t2.minute, 2);
    assert d1[0..2] == d2[0..2] && d1[4..8] == d2[4..8];
    assert h1[0..2] == h2[0..2] && h1[3..5] == h2[3..5] && h1[6..] == h2[6..];
    TwelveHourClockFaithful(t1.hour);
    TwelveHourClockFaithful(t2.hour);
  }

  /** The title-page stamp identifies the instant to the minute: two
      instants with the same stamp agree on everything but the second. */
  lemma GeneratedStampFaithful(t1: Instant, t2: Instant)
    requires Valid(t1) && Valid(t2)
    requires GeneratedStamp(t1) == GeneratedStamp(t2)
    ensures t1.year == t2.year && t1.month == t2.month && t1.day == t2.day
    ensures t1.hour == t2.hour && t1.minute == t2.minute
  {
    var r := GeneratedStamp(t1);
    var n1, n2 := MonthNames[t1.month - 1], MonthNames[t2.month - 1];
    assert n1 == r[..|n1|] == n2;
    MonthNamesDistinct(t1.month);
    MonthNamesDistinct(t2.month);
    assert ClockText(t1) == r[|n1| + 1..] == ClockText(t2);
    ClockTextFaithful(t1, t2);
  }

  // ---------------------------------------------------------------------
  // The download filename
  // ---------------------------------------------------------------------

  const FilenamePrefix: string := "ChemViz_Report_"
  const FilenameSuffix: string := ".pdf"

  /** `now.strftime('%Y%m%d_%H%M%S')`. */
  function Stamp(t: Instant): (s: string)
    ensures |s| == 15 && s[8] == '_'
    ensures s[0..4] == FixedDigits(t.year, 4) && s[4..6] == FixedDigits(t.month, 2)
    ensures s[6..8] == FixedDigits(t.day, 2) && s[9..11] == FixedDigits(t.hour, 2)
    ensures s[11..13] == FixedDigits(t.minute, 2) && s[13..15] == FixedDigits(t.second, 2)
  {
    FixedDigits(t.year, 4) + FixedDigits(t.month, 2) + FixedDigits(t.day, 2) + "_"
    + FixedDigits(t.hour, 2) + FixedDigits(t.minute, 2) + FixedDigits(t.second, 2)
  }

  /** `f"ChemViz_Report_{now.strftime('%Y%m%d_%H%M%S')}.pdf"`: the fixed
      prefix, the zero-padded date and time fields around an underscore, and
      the extension. */
  function Filename(t: Instant): (name: string)
    ensures |name| == 34
    ensures name[..15] == FilenamePrefix && name[30..] == FilenameSuffix && name[23] == '_'
    ensures name[15..19] == FixedDigits(t.year, 4) && name[19..21] == FixedDigits(t.month, 2)
    ensures name[21..23] == FixedDigits(t.day, 2) && name[24..26] == FixedDigits(t.hour, 2)
    ensures name[26..28] == FixedDigits(t.minute, 2) && name[28..30] == FixedDigits(t.second, 2)
  {
    var st := Stamp(t);
    SliceMiddle(FilenamePrefix, st, FilenameSuffix, 0, 4);
    SliceMiddle(FilenamePrefix, st, FilenameSuffix, 4, 6);
    SliceMiddle(FilenamePrefix, st, FilenameSuffix, 6, 8);
    SliceMiddle(FilenamePrefix, st, FilenameSuffix, 9, 11);
    SliceMiddle(FilenamePrefix, st, FilenameSuffix, 11, 13);
    SliceMiddle(FilenamePrefix, st, FilenameSuffix, 13, 15);
    FilenamePrefix + st + FilenameSuffix
  }

  /** Reads the instant back out of a report filename; `None` for any string
      that does not have the filename's shape. */
  function ParseFilename(name: string): (t: Option<Instant>)
  {
    if |name| == 34 && name[..15] == FilenamePrefix && name[23] == '_'
       && name[30..] == FilenameSuffix
       && AllDigits(name[15..19]) && AllDigits(name[19..21]) && AllDigits(name[21..23])
       && AllDigits(name[24..26]) && AllDigits(name[26..28]) && AllDigits(name[28..30])
    then
      Some(Instant(DecimalValue(name[15..19]), DecimalValue(name[19..21]), DecimalValue(name[21..23]),
                   DecimalValue(name[24..26]), DecimalValue(name[26..28]), DecimalValue(name[28..30])))
    else None
  }

  /** The filename records the instant to the second: parsing it gives the
      instant back. */
  lemma FilenameRoundTrip(t: Instant)
    requires Valid(t)
    ensures ParseFilename(Filename(t)) == Some(t)
  {
    assert Pow10(4) == 10000 && Pow10(2) == 100;
    FixedDigitsValue(t.year, 4);
    FixedDigitsValue(t.month, 2);
    FixedDigitsValue(t.day, 2);
    FixedDigitsValue(t.hour, 2);
    FixedDigitsValue(t.minute, 2);
    FixedDigitsValue(t.second, 2);
  }

  /** Conversely, every string the parser accepts is exactly the filename of
      the instant it yields, so filenames and instants correspond one to
      one. */
  lemma ParseFilenameExact(name: string)
    requires ParseFilename(name).Some?
    ensures Filename(ParseFilename(name).value) == name
  {
    var t := ParseFilename(name).value;
    DecimalValueFixed(name[15..19]);
    DecimalValueFixed(name[19..21]);
    DecimalValueFixed(name[21..23]);
    DecimalValueFixed(name[24..26]);
    DecimalValueFixed(name[26..28]);
    DecimalValueFixed(name[28..30]);
    assert name[..19] == name[..15] + name[15..19];
    assert name[..21] == name[..19] + name[19..21];
    assert name[..23] == name[..21] + name[21..23];
    assert name[..24] == name[..23] + "_";
    assert name[..26] == name[..24] + name[24..26];
    assert name[..28] == name[..26] + name[26..28];
    assert name[..30] == name[..28] + name[28..30];
    assert name == name[..30] + FilenameSuffix;
  }
}

=== FILE: composer.dfy ===
/** The detailed report endpoint: defaulting the request, composing the
    four pages of blocks with a page break between neighbours, and naming
    the download. Facts about the whole document's shape live here. */
module Composer {

  import opened Wrappers
  import opened Sequences
  import opened Strings
  import opened Clock
  import opened Document
  import opened Metrics
  import opened Inputs
  import opened Sections
  import opened Wording

  /** What the endpoint reads from its surroundings: the authenticated
      user's name, the two readings of the clock (one for the title page,
      one for the filename), and `json.dumps(results, indent=2)`. */
  datatype Environment = Environment(
    requester: string,
    generatedAt: Instant,
    respondedAt: Instant,
    resultsJson: string)

  predicate ValidEnvironment(env: Environment) {
    Valid(env.generatedAt) && Valid(env.respondedAt)
  }

  /** The downloadable document and its suggested filename. */
  datatype Report = Report(blocks: seq<Block>, filename: string)

  /** Second page: executive summary through pressure analysis, each
      section built from the summary's own values. */
  function AnalysisPage(s: Summary): (p: seq<Block>)
    ensures var d := Distribution(s.typeDistribution);
      |p| == 6 + |d| + |TechnicalAnalysis(s)|
      && p[..3] == ExecutiveSummary(s.totalEquipment) && p[3..6] == KeyMetrics(s) && p[4] == MetricsTable(s)
      && p[6..6 + |d|] == d && p[6 + |d|..] == TechnicalAnalysis(s)
  {
    ExecutiveSummary(s.totalEquipment) + KeyMetrics(s) + Distribution(s.typeDistribution) + TechnicalAnalysis(s)
  }

  /** Third page: historical trends for the given uploads, then the
      recommendations. */
  function TrendsPage(history: seq<HistoryRecord>): (p: seq<Block>)
    ensures var h := HistoricalTrends(history);
      |p| == |h| + |Recommendations()| && p[..|h|] == h && p[|h|..] == Recommendations()
  {
    HistoricalTrends(history) + Recommendations()
  }

  /** The block sequence, appended in the endpoint's order. It falls into
      exactly four pages at its three page breaks, whatever the data: the
      title page (ending with the metadata line), the analysis page
      (executive summary to pressure analysis), the trends page (history and
      recommendations) and the appendix page. */
  function Compose(input: Inputs, generatedAt: Instant, json: string): (blocks: seq<Block>)
    requires Valid(generatedAt)
    ensures Pages(blocks) == [
      CoverPage(input.username, generatedAt),
      AnalysisPage(input.summary),
      TrendsPage(input.history),
      Appendix(json)]
    ensures Count(blocks, PageBreak) == 3
  {
    AnalysisPageShape(input.summary);
    TrendsPageShape(input.history);
    AppendixShape(json);
    FourPages(CoverPage(input.username, generatedAt), AnalysisPage(input.summary),
              TrendsPage(input.history), Appendix(json));
    CoverPage(input.username, generatedAt) + [PageBreak]
    + AnalysisPage(input.summary) + [PageBreak]
    + TrendsPage(input.history) + [PageBreak]
    + Appendix(json)
  }

  /** The endpoint: defaults the request, composes the document from the
      defaulted data, the first clock reading and the JSON dump, and names
      it after the second clock reading. */
  function Generate(req: Request, env: Environment): (r: Report)
    requires ValidEnvironment(env)
    ensures var input := Normalize(req, env.requester);
      Pages(r.blocks) == [
        CoverPage(input.username, env.generatedAt),
        AnalysisPage(input.summary),
        TrendsPage(input.history),
        Appendix(env.resultsJson)]
    ensures ParseFilename(r.filename) == Some(env.respondedAt)
  {
    FilenameRoundTrip(env.respondedAt);
    Report(Compose(Normalize(req, env.requester), env.generatedAt, env.resultsJson),
           Filename(env.respondedAt))
  }

  /** The section headings of the report, in report order. */
  const SectionOrder: seq<string> := [
    SummaryTitle, MetricsTitle, DistributionTitle, AnalysisTitle,
    HistoryTitle, RecommendationsTitle, AppendixTitle
  ]

  // ---------------------------------------------------------------------
  // Pages
  // ---------------------------------------------------------------------

  /** The analysis page has no break inside, holds the first four sections
      in order, opens with the executive summary and closes with the
      pressure analysis. */
  lemma AnalysisPageShape(s: Summary)
    ensures PageBreak !in AnalysisPage(s) && AllWellFormed(AnalysisPage(s))
    ensures Headings(AnalysisPage(s)) == SectionOrder[..4]
    ensures |AnalysisPage(s)| > 0 && AnalysisPage(s)[0] == HeadingBlock(SummaryTitle)
    ensures Last(AnalysisPage(s)) == PressureParagraph(s.avgPressure)
  {
    AnalysisSectionsShape(ExecutiveSummary(s.totalEquipment), KeyMetrics(s),
                          Distribution(s.typeDistribution), TechnicalAnalysis(s), s.avgPressure);
    AllWellFormedFour(ExecutiveSummary(s.totalEquipment), KeyMetrics(s),
                      Distribution(s.typeDistribution), TechnicalAnalysis(s));
  }

  /** The four analysis sections, appended, make a page of the first four
      headings in order. */
  lemma AnalysisSectionsShape(e: seq<Block>, k: seq<Block>, d: seq<Block>, t: seq<Block>, avgPressure: real)
    requires IsSection(e, SummaryTitle) && IsSection(k, MetricsTitle) && IsSection(d, DistributionTitle)
    requires IsSection(t, AnalysisTitle) && Last(t) == PressureParagraph(avgPressure)
    ensures PageBreak !in e + k + d + t
    ensures Headings(e + k + d + t) == SectionOrder[..4]
    ensures (e + k + d + t)[0] == HeadingBlock(SummaryTitle)
    ensures Last(e + k + d + t) == PressureParagraph(avgPressure)
  {
    var ek := e + k;
    var ekd := ek + d;
    SectionHeadings(e, SummaryTitle);
    SectionAfter(e, [SummaryTitle], k, MetricsTitle);
    SectionAfter(ek, [SummaryTitle, MetricsTitle], d, DistributionTitle);
    SectionAfter(ekd, [SummaryTitle, MetricsTitle, DistributionTitle], t, AnalysisTitle);
    assert SectionOrder[..4] == [SummaryTitle, MetricsTitle, DistributionTitle, AnalysisTitle];
    assert e + k + d + t == ekd + t;
    assert (ekd + t)[0] == e[0];
  }

  /** Four runs of well-formed blocks, appended, stay well formed. */
  lemma AllWellFormedFour(e: seq<Block>, k: seq<Block>, d: seq<Block>, t: seq<Block>)
    requires AllWellFormed(e) && AllWellFormed(k) && AllWellFormed(d) && AllWellFormed(t)
    ensures AllWellFormed(e + k + d + t)
  {
    AllWellFormedAppend(e, k);
    AllWellFormedAppend(e + k, d);
    AllWellFormedAppend(e + k + d, t);
  }

  /** The trends page has no break inside, holds the history and
      recommendations sections in order and opens with the history. */
  lemma TrendsPageShape(history: seq<HistoryRecord>)
    ensures PageBreak !in TrendsPage(history) && AllWellFormed(TrendsPage(history))
    ensures Headings(TrendsPage(history)) == SectionOrder[4..6]
    ensures |TrendsPage(history)| > 0 && TrendsPage(history)[0] == HeadingBlock(HistoryTitle)
  {
    TrendsSectionsShape(HistoricalTrends(history), Recommendations());
  }

  /** The history and recommendations sections, appended, hold those two
      headings in order, no page break, and well-formed tables only. */
  lemma TrendsSectionsShape(h: seq<Block>, r: seq<Block>)
    requires IsSection(h, HistoryTitle) && AllWellFormed(h)
    requires IsSection(r, RecommendationsTitle) && AllWellFormed(r)
    ensures PageBreak !in h + r && AllWellFormed(h + r)
    ensures Headings(h + r) == SectionOrder[4..6]
    ensures (h + r)[0] == HeadingBlock(HistoryTitle)
  {
    SectionHeadings(h, HistoryTitle);
    SectionAfter(h, [HistoryTitle], r, RecommendationsTitle);
    AllWellFormedAppend(h, r);
    assert SectionOrder[4..6] == [HistoryTitle, RecommendationsTitle];
    assert (h + r)[0] == h[0];
  }

  /** The appendix page is the appendix section alone: it opens with its
      heading and closes with the footer. */
  lemma AppendixShape(json: string)
    ensures PageBreak !in Appendix(json) && AllWellFormed(Appendix(json))
    ensures Headings(Appendix(json)) == SectionOrder[6..]
    ensures Appendix(json)[0] == HeadingBlock(AppendixTitle)
    ensures Last(Appendix(json)) == FooterBlock
  {
    SectionHeadings(Appendix(json), AppendixTitle);
  }

  /** The section headings appear in the fixed order, once each, for every
      request: data never adds, drops or reorders a section. */
  lemma ReportHeadings(req: Request, env: Environment)
    requires ValidEnvironment(env)
    ensures Headings(Generate(req, env).blocks) == SectionOrder
  {
    var input := Normalize(req, env.requester);
    AnalysisPageShape(input.summary);
    TrendsPageShape(input.history);
    AppendixShape(env.resultsJson);
    FourPagesHeadingOrder(CoverPage(input.username, env.generatedAt), AnalysisPage(input.summary),
                          TrendsPage(input.history), Appendix(env.resultsJson), SectionOrder, 0, 4, 6);
  }

  // ---------------------------------------------------------------------
  // Tables and defaults
  // ---------------------------------------------------------------------

  /** Every table in the document has one cell per header column in every
      row, whatever the data. */
  lemma ReportTablesWellFormed(req: Request, env: Environment)
    requires ValidEnvironment(env)
    ensures AllWellFormed(Generate(req, env).blocks)
  {
    var input := Normalize(req, env.requester);
    AnalysisPageShape(input.summary);
    TrendsPageShape(input.history);
    AppendixShape(env.resultsJson);
    FourPagesWellFormed(CoverPage(input.username, env.generatedAt), AnalysisPage(input.summary),
                        TrendsPage(input.history), Appendix(env.resultsJson));
  }

  /** An empty request body still yields a complete four-page report:
      the requester as preparer, zero equipment in the summary sentence and
      the metrics table, and both fallback sentences in place of the two
      data tables. */
  lemma EmptyRequestReport(env: Environment)
    requires ValidEnvironment(env)
    ensures var pages := Pages(Generate(Request(None, None, None), env).blocks);
      |pages| == 4 && |pages[0]| > 0 && |pages[1]| >= 9 && |pages[2]| >= 3
      && Last(pages[0]) == MetadataBlock(GeneratedStamp(env.generatedAt), env.requester)
      && pages[1][1].Paragraph? && |pages[1][1].spans| == 3 && pages[1][1].spans[1] == Text("0")
      && pages[1][4].Table? && |pages[1][4].rows| == 4 && pages[1][4].rows[0][1] == [Text("0")]
      && pages[1][6..9] == [HeadingBlock(DistributionTitle), Paragraph(Body, [Stock(NoDistribution)]), Spacer(20)]
      && pages[2][..3] == [HeadingBlock(HistoryTitle), Paragraph(Body, [Stock(NoHistory)]), Spacer(20)]
  {
    var zero := Summary(0, 0.0, 0.0, 0.0, map[]);
    EmptyRequestDefaults(env.requester);
    EmptyAnalysisPage(zero);
    HistorySection([]);
  }

  /** With the all-zero summary the analysis page shows 0 in the summary
      sentence and the metrics table, and the distribution fallback. */
  lemma EmptyAnalysisPage(s: Summary)
    requires s == Summary(0, 0.0, 0.0, 0.0, map[])
    ensures var p := AnalysisPage(s);
      |p| >= 9
      && p[1].Paragraph? && |p[1].spans| == 3 && p[1].spans[1] == Text("0")
      && p[4].Table? && |p[4].rows| == 4 && p[4].rows[0][1] == [Text("0")]
      && p[6..9] == [HeadingBlock(DistributionTitle), Paragraph(Body, [Stock(NoDistribution)]), Spacer(20)]
  {
    var p := AnalysisPage(s);
    SingleDigit(0);
    DistributionFallback(s.typeDistribution);
    assert p[1] == ExecutiveSummary(0)[1];
  }
}

=== FILE: document.dfy ===
/** The abstract document the composer builds: an ordered list of blocks,
    the ReportLab "flowables" (Paragraph, Table, Spacer, PageBreak). Styles
    are opaque tags naming the report's paragraph styles; inline markup
    inside paragraph text (`<b>`, `<br/>`, `<font>`) is carried as a list of
    styled spans instead of markup syntax. */
module Document {

  import opened Sequences
  import opened Wording

  /** The paragraph styles the report uses: `Icon`, `CustomTitle`,
      `CustomSubtitle`, `CustomHeading`, `CustomSubheading`, `CustomBody`,
      `Metadata` and `JSONStyle`. */
  datatype Style = Icon | Title | Subtitle | Heading | Subheading | Body | Metadata | Code

  /** A run of inline text. `Fixed(x, places)` is a number rendered with
      `places` decimals (`f"{x:.2f}"`); its rounding is left to the renderer.
      `Muted` is the small grey `<font>` byline of the footer. `Stock(p)` is
      one of the report's fixed sentences, worded by `Words(p)`. */
  datatype Span =
    | Text(s: string)
    | Stock(p: Phrase)
    | Bold(s: string)
    | Muted(s: string)
    | Fixed(x: real, places: nat)
    | LineBreak

  /** A table cell is a short run of spans (a label, or a number and its unit). */
  type Cell = seq<Span>

  datatype Block =
    | Paragraph(style: Style, spans: seq<Span>)
    | Table(header: seq<string>, rows: seq<seq<Cell>>)
    | Spacer(height: nat)
    | PageBreak

  function Last(blocks: seq<Block>): Block
    requires |blocks| > 0
  {
    blocks[|blocks| - 1]
  }

  /** Every row of a table has one cell per header column. */
  predicate WellFormed(b: Block) {
    b.Table? ==> forall i :: 0 <= i < |b.rows| ==> |b.rows[i]| == |b.header|
  }

  predicate AllWellFormed(blocks: seq<Block>) {
    forall i :: 0 <= i < |blocks| ==> WellFormed(blocks[i])
  }

  lemma AllWellFormedAppend(a: seq<Block>, b: seq<Block>)
    requires AllWellFormed(a) && AllWellFormed(b)
    ensures AllWellFormed(a + b)
  {
    forall i | 0 <= i < |a + b|
      ensures WellFormed((a + b)[i])
    {
      if i >= |a| {
        assert (a + b)[i] == b[i - |a|];
      }
    }
  }

  lemma FourPagesWellFormed(a: seq<Block>, b: seq<Block>, c: seq<Block>, d: seq<Block>)
    requires AllWellFormed(a) && AllWellFormed(b) && AllWellFormed(c) && AllWellFormed(d)
    ensures AllWellFormed(a + [PageBreak] + b + [PageBreak] + c + [PageBreak] + d)
  {
    AllWellFormedAppend(a, [PageBreak]);
    AllWellFormedAppend(a + [PageBreak], b);
    AllWellFormedAppend(a + [PageBreak] + b, [PageBreak]);
    AllWellFormedAppend(a + [PageBreak] + b + [PageBreak], c);
    AllWellFormedAppend(a + [PageBreak] + b + [PageBreak] + c, [PageBreak]);
    AllWellFormedAppend(a + [PageBreak] + b + [PageBreak] + c + [PageBreak], d);
  }

  /** The blocks between consecutive page breaks, in order: what each
      physical page starts with once the renderer honours the breaks. */
  function Pages(blocks: seq<Block>): (pages: seq<seq<Block>>)
    ensures |pages| >= 1
    ensures forall i :: 0 <= i < |pages| ==> PageBreak !in pages[i]
  {
    Split(blocks, PageBreak)
  }

  /** The section headings of a document, in document order. */
  function Headings(blocks: seq<Block>): (hs: seq<string>)
    ensures |hs| <= |blocks|
  {
    if |blocks| == 0 then []
    else
      (if IsHeading(blocks[0]) then [TextOf(blocks[0])] else [])
      + Headings(blocks[1..])
  }

  predicate IsHeading(b: Block) {
    b.Paragraph? && b.style == Heading
  }

  /** The text of a paragraph made of one plain text span, such as a
      heading or a line of code; empty for any other block. */
  function TextOf(b: Block): string {
    if b.Paragraph? && |b.spans| == 1 && b.spans[0].Text? then b.spans[0].s else ""
  }

  /** A heading paragraph made of one plain text span. */
  function HeadingBlock(title: string): (b: Block)
    ensures IsHeading(b) && Headings([b]) == [title]
  {
    var b := Paragraph(Heading, [Text(title)]);
    assert [b][1..] == [];
    assert Headings([b]) == [TextOf(b)] + Headings([]);
    b
  }

  lemma {:induction false} HeadingsAppend(a: seq<Block>, b: seq<Block>)
    ensures Headings(a + b) == Headings(a) + Headings(b)
  {
    if |a| == 0 {
      assert a + b == b;
    } else {
      var first := if IsHeading(a[0]) then [TextOf(a[0])] else [];
      assert (a + b)[0] == a[0];
      assert (a + b)[1..] == a[1..] + b;
      assert Headings(a + b) == first + Headings(a[1..] + b);
      HeadingsAppend(a[1..], b);
      assert first + (Headings(a[1..]) + Headings(b)) == (first + Headings(a[1..])) + Headings(b);
    }
  }

  /** Blocks none of which is a heading paragraph contribute no heading. */
  lemma {:induction false} HeadingsNone(blocks: seq<Block>)
    requires forall i :: 0 <= i < |blocks| ==> !IsHeading(blocks[i])
    ensures Headings(blocks) == []
  {
    if |blocks| != 0 {
      HeadingsNone(blocks[1..]);
    }
  }

  /** Blocks that are neither headings nor page breaks. */
  predicate Plain(blocks: seq<Block>) {
    forall i :: 0 <= i < |blocks| ==> !IsHeading(blocks[i]) && blocks[i] != PageBreak
  }

  /** A section of the report: its heading paragraph, then plain blocks. */
  predicate IsSection(blocks: seq<Block>, title: string) {
    |blocks| > 0 && blocks[0] == HeadingBlock(title) && Plain(blocks[1..])
  }

  /** A heading followed by plain blocks is a section, and has no page
      break. */
  lemma MakeSection(title: string, body: seq<Block>)
    requires Plain(body)
    ensures IsSection([HeadingBlock(title)] + body, title)
    ensures PageBreak !in [HeadingBlock(title)] + body
  {
    var s := [HeadingBlock(title)] + body;
    assert s[1..] == body;
    forall i | 0 <= i < |s|
      ensures s[i] != PageBreak
    {
      if i > 0 {
        assert s[i] == body[i - 1];
      }
    }
  }

  /** A section contributes exactly its own title to the headings. */
  lemma SectionHeadings(blocks: seq<Block>, title: string)
    requires IsSection(blocks, title)
    ensures Headings(blocks) == [title]
    ensures PageBreak !in blocks
  {
    HeadingsNone(blocks[1..]);
    HeadingsAppend([blocks[0]], blocks[1..]);
    assert blocks == [blocks[0]] + blocks[1..];
    forall i | 0 <= i < |blocks|
      ensures blocks[i] != PageBreak
    {
      if i > 0 {
        assert blocks[i] == blocks[1..][i - 1];
      }
    }
  }

  /** Appending a section to a break-free run appends its title to the
      run's headings. */
  lemma SectionAfter(run: seq<Block>, titles: seq<string>, section: seq<Block>, title: string)
    requires PageBreak !in run && Headings(run) == titles
    requires IsSection(section, title)
    ensures PageBreak !in run + section
    ensures Headings(run + section) == titles + [title]
  {
    SectionHeadings(section, title);
    HeadingsAppend(run, section);
  }

  /** Four break-free runs joined by three page breaks make exactly those
      four pages. */
  lemma FourPages(a: seq<Block>, b: seq<Block>, c: seq<Block>, d: seq<Block>)
    requires PageBreak !in a && PageBreak !in b && PageBreak !in c && PageBreak !in d
    ensures Pages(a + [PageBreak] + b + [PageBreak] + c + [PageBreak] + d) == [a, b, c, d]
    ensures Count(a + [PageBreak] + b + [PageBreak] + c + [PageBreak] + d, PageBreak) == 3
  {
    var all := a + [PageBreak] + b + [PageBreak] + c + [PageBreak] + d;
    assert all == a + [PageBreak] + (b + [PageBreak] + (c + [PageBreak] + d));
    SplitAfterFree(a, PageBreak, b + [PageBreak] + (c + [PageBreak] + d));
    SplitAfterFree(b, PageBreak, c + [PageBreak] + d);
    SplitAfterFree(c, PageBreak, d);
    SplitFree(d, PageBreak);
    SplitLength(all, PageBreak);
  }

  /** A page break carries no heading. */
  lemma HeadingsAroundBreak(x: seq<Block>, y: seq<Block>)
    ensures Headings(x + [PageBreak] + y) == Headings(x) + Headings(y)
  {
    HeadingsAppend(x + [PageBreak], y);
    HeadingsAppend(x, [PageBreak]);
    assert [PageBreak][1..] == [];
    assert Headings([PageBreak]) == [] + Headings([]);
  }

  /** The headings of four pages joined by breaks are the pages' headings
      in order. */
  lemma FourPagesHeadings(a: seq<Block>, b: seq<Block>, c: seq<Block>, d: seq<Block>)
    ensures Headings(a + [PageBreak] + b + [PageBreak] + c + [PageBreak] + d)
         == Headings(a) + Headings(b) + Headings(c) + Headings(d)
  {
    HeadingsAroundBreak(a + [PageBreak] + b + [PageBreak] + c, d);
    HeadingsAroundBreak(a + [PageBreak] + b, c);
    HeadingsAroundBreak(a, b);
  }

  /** Four pages whose headings are consecutive slices of `order` carry,
      joined by breaks, exactly the headings `order`. */
  lemma FourPagesHeadingOrder(a: seq<Block>, b: seq<Block>, c: seq<Block>, d: seq<Block>,
                              order: seq<string>, i: nat, j: nat, k: nat)
    requires i <= j <= k <= |order|
    requires Headings(a) == order[..i] && Headings(b) == order[i..j]
    requires Headings(c) == order[j..k] && Headings(d) == order[k..]
    ensures Headings(a + [PageBreak] + b + [PageBreak] + c + [PageBreak] + d) == order
  {
    FourPagesHeadings(a, b, c, d);
    Slices4(order, i, j, k);
  }
}

=== FILE: inputs.dfy ===
/** The request body of the report endpoint and its defaulting. Every key
    is optional; a missing key takes the default the endpoint supplies with
    `dict.get`. */
module Inputs {

  import opened Wrappers

  /** The `results` object: the upload summary. */
  datatype Results = Results(
    totalEquipment: Option<int>,
    avgFlowrate: Option<real>,
    avgPressure: Option<real>,
    avgTemperature: Option<real>,
    typeDistribution: Option<map<string, int>>)

  /** One element of the `history` list, as the history endpoint produces
      it. Its keys stay optional: the history table defaults them row by
      row. */
  datatype HistoryRecord = HistoryRecord(
    time: Option<string>,
    totalEquipment: Option<int>,
    avgFlowrate: Option<real>,
    avgPressure: Option<real>,
    avgTemperature: Option<real>)

  /** The request body: `results`, `history` and `username`, each optional. */
  datatype Request = Request(
    results: Option<Results>,
    history: Option<seq<HistoryRecord>>,
    username: Option<string>)

  /** The summary with every default applied. */
  datatype Summary = Summary(
    totalEquipment: int,
    avgFlowrate: real,
    avgTemperature: real,
    avgPressure: real,
    typeDistribution: map<string, int>)

  /** What the composer works from once the request has been defaulted. */
  datatype Inputs = Inputs(summary: Summary, history: seq<HistoryRecord>, username: string)

  const NoResults := Results(None, None, None, None, None)

  /** Applies the endpoint's defaults: a missing `results` is `{}`, a
      missing `history` is `[]`, a missing `username` is the name of the
      authenticated `requester`, and a missing summary key is 0 or `{}`.
      Every present input is used as given. */
  function Normalize(req: Request, requester: string): (r: Inputs)
    ensures ResultsOf(req).totalEquipment.Some? ==> r.summary.totalEquipment == ResultsOf(req).totalEquipment.value
    ensures ResultsOf(req).totalEquipment.None? ==> r.summary.totalEquipment == 0
    ensures ResultsOf(req).avgFlowrate.Some? ==> r.summary.avgFlowrate == ResultsOf(req).avgFlowrate.value
    ensures ResultsOf(req).avgFlowrate.None? ==> r.summary.avgFlowrate == 0.0
    ensures ResultsOf(req).avgTemperature.Some? ==> r.summary.avgTemperature == ResultsOf(req).avgTemperature.value
    ensures ResultsOf(req).avgTemperature.None? ==> r.summary.avgTemperature == 0.0
    ensures ResultsOf(req).avgPressure.Some? ==> r.summary.avgPressure == ResultsOf(req).avgPressure.value
    ensures ResultsOf(req).avgPressure.None? ==> r.summary.avgPressure == 0.0
    ensures ResultsOf(req).typeDistribution.Some? ==> r.summary.typeDistribution == ResultsOf(req).typeDistribution.value
    ensures ResultsOf(req).typeDistribution.None? ==> r.summary.typeDistribution == map[]
    ensures req.history.Some? ==> r.history == req.history.value
    ensures req.history.None? ==> r.history == []
    ensures req.username.Some? ==> r.username == req.username.value
    ensures req.username.None? ==> r.username == requester
  {
    var results := ResultsOf(req);
    Inputs(
      Summary(
        results.totalEquipment.GetOr(0),
        results.avgFlowrate.GetOr(0.0),
        results.avgTemperature.GetOr(0.0),
        results.avgPressure.GetOr(0.0),
        results.typeDistribution.GetOr(map[])),
      req.history.GetOr([]),
      req.username.GetOr(requester))
  }

  /** `data.get('results', {})`. */
  function ResultsOf(req: Request): Results {
    req.results.GetOr(NoResults)
  }

  /** An entirely empty request body yields the all-zero summary, no
      history, and the requester as preparer. */
  lemma EmptyRequestDefaults(requester: string)
    ensures Normalize(Request(None, None, None), requester)
         == Inputs(Summary(0, 0.0, 0.0, 0.0, map[]), [], requester)
  {
  }
}

=== FILE: metrics.dfy ===
/** The derived statistics of the distribution table: the equipment types
    in Python's sorted order (`sorted(type_dist.items())`), the sum of the
    counts (`sum(type_dist.values())`), and each type's share of that sum
    (`count / total * 100`, or 0 when the sum is not positive). Shares are
    exact reals; the one-decimal rendering is the renderer's. */
module Metrics {

  import opened Strings

  // ---------------------------------------------------------------------
  // Sorting the labels
  // ---------------------------------------------------------------------

  predicate StrictlySorted(s: seq<string>) {
    forall i, j :: 0 <= i < j < |s| ==> Less(s[i], s[j])
  }

  predicate IsLeast(k: string, keys: set<string>) {
    k in keys && forall j :: j in keys && j != k ==> Less(k, j)
  }

  lemma {:induction false} LeastExists(keys: set<string>)
    requires keys != {}
    ensures exists k :: IsLeast(k, keys)
    decreases |keys|
  {
    var x :| x in keys;
    var rest := keys - {x};
    if rest == {} {
      assert keys == {x};
      assert IsLeast(x, keys);
    } else {
      LeastExists(rest);
      var m :| IsLeast(m, rest);
      if Less(m, x) {
        forall j | j in keys && j != m
          ensures Less(m, j)
        {
          if j != x {
            assert j in rest;
          }
        }
        assert IsLeast(m, keys);
      } else {
        LessTotal(m, x);
        forall j | j in keys && j != x
          ensures Less(x, j)
        {
          if j != m {
            assert j in rest;
            LessTransitive(x, m, j);
          }
        }
        assert IsLeast(x, keys);
      }
    }
  }

  lemma LeastUnique(keys: set<string>)
    ensures forall a, b :: IsLeast(a, keys) && IsLeast(b, keys) ==> a == b
  {
    forall a, b | IsLeast(a, keys) && IsLeast(b, keys)
      ensures a == b
    {
      if a != b {
        LessAsymmetric(a, b);
      }
    }
  }

  /** The labels of a set in ascending Python string order, each once. */
  function SortedLabels(keys: set<string>): (r: seq<string>)
    ensures |r| == |keys|
    ensures forall i :: 0 <= i < |r| ==> r[i] in keys
    ensures forall k :: k in keys ==> k in r
    ensures StrictlySorted(r)
    decreases keys
  {
    if keys == {} then []
    else
      LeastExists(keys);
      LeastUnique(keys);
      var k :| IsLeast(k, keys);
      [k] + SortedLabels(keys - {k})
  }

  /** `SortedLabels` starts with the least label. */
  lemma SortedLabelsHead(keys: set<string>, k: string)
    requires IsLeast(k, keys)
    ensures SortedLabels(keys) == [k] + SortedLabels(keys - {k})
  {
    LeastUnique(keys);
  }

  lemma SortedDistinct(s: seq<string>)
    requires StrictlySorted(s)
    ensures forall i, j :: 0 <= i < j < |s| ==> s[i] != s[j]
  {
    forall i, j | 0 <= i < j < |s|
      ensures s[i] != s[j]
    {
      LessIrreflexive(s[i]);
    }
  }

  /** The first element of a strictly ascending listing of a set is the
      set's least element. */
  lemma SortedHeadIsLeast(s: seq<string>, keys: set<string>)
    requires StrictlySorted(s) && |s| > 0
    requires forall k :: k in keys ==> k in s
    requires s[0] in keys
    ensures IsLeast(s[0], keys)
  {
    forall j | j in keys && j != s[0]
      ensures Less(s[0], j)
    {
      var i :| 0 <= i < |s| && s[i] == j;
    }
  }

  /** Sorting has exactly one possible outcome: any strictly ascending
      listing of the labels is `SortedLabels`. */
  lemma {:induction false} SortedLabelsUnique(s: seq<string>, keys: set<string>)
    requires StrictlySorted(s)
    requires forall i :: 0 <= i < |s| ==> s[i] in keys
    requires forall k :: k in keys ==> k in s
    requires |s| == |keys|
    ensures s == SortedLabels(keys)
    decreases keys
  {
    if keys == {} {
      assert |s| == 0;
    } else {
      var k := s[0];
      assert SortedLabels(keys) == [k] + SortedLabels(keys - {k}) by {
        SortedHeadIsLeast(s, keys);
        SortedLabelsHead(keys, k);
      }
      assert s[1..] == SortedLabels(keys - {k}) by {
        SortedTail(s, keys);
        SortedLabelsUnique(s[1..], keys - {k});
      }
      assert s == [k] + s[1..];
    }
  }

  lemma SortedTail(s: seq<string>, keys: set<string>)
    requires StrictlySorted(s) && |s| > 0
    requires forall i :: 0 <= i < |s| ==> s[i] in keys
    requires forall k :: k in keys ==> k in s
    ensures StrictlySorted(s[1..])
    ensures forall i :: 0 <= i < |s[1..]| ==> s[1..][i] in keys - {s[0]}
    ensures forall k :: k in keys - {s[0]} ==> k in s[1..]
  {
    SortedDistinct(s);
    forall j | j in keys - {s[0]}
      ensures j in s[1..]
    {
      var i :| 0 <= i < |s| && s[i] == j;
      assert s[1..][i - 1] == j;
    }
  }

  // ---------------------------------------------------------------------
  // Sum of the counts
  // ---------------------------------------------------------------------

  /** The sum of a map's values over a set of its keys, taken in no
      particular order. */
  ghost function SumOver(keys: set<string>, m: map<string, int>): int
    requires keys <= m.Keys
    decreases keys
  {
    if keys == {} then 0
    else
      var k :| k in keys;
      m[k] + SumOver(keys - {k}, m)
  }

  /** The reference meaning of `sum(type_dist.values())`. */
  ghost function MapSum(m: map<string, int>): int {
    SumOver(m.Keys, m)
  }

  /** The sum does not depend on which key is taken out first. */
  lemma {:induction false} SumOverRemove(keys: set<string>, m: map<string, int>, k: string)
    requires keys <= m.Keys && k in keys
    ensures SumOver(keys, m) == m[k] + SumOver(keys - {k}, m)
    decreases keys
  {
    var j :| j in keys && SumOver(keys, m) == m[j] + SumOver(keys - {j}, m);
    if j != k {
      SumOverRemove(keys - {j}, m, k);
      SumOverRemove(keys - {k}, m, j);
      assert keys - {j} - {k} == keys - {k} - {j};
    }
  }

  /** The counts of the given labels, added in the given order. */
  function SumCounts(labels: seq<string>, m: map<string, int>): int
    requires forall i :: 0 <= i < |labels| ==> labels[i] in m
  {
    if |labels| == 0 then 0
    else m[labels[0]] + SumCounts(labels[1..], m)
  }

  /** Adding the counts along any duplicate-free listing of a set of keys
      gives the sum over that set. */
  lemma {:induction false} SumCountsIsSumOver(labels: seq<string>, keys: set<string>, m: map<string, int>)
    requires keys <= m.Keys
    requires forall i :: 0 <= i < |labels| ==> labels[i] in keys
    requires forall k :: k in keys ==> k in labels
    requires forall i, j :: 0 <= i < j < |labels| ==> labels[i] != labels[j]
    ensures SumCounts(labels, m) == SumOver(keys, m)
    decreases |labels|
  {
    if |labels| == 0 {
      assert keys == {};
    } else {
      var k := labels[0];
      var rest := keys - {k};
      forall j | j in rest
        ensures j in labels[1..]
      {
        var i :| 0 <= i < |labels| && labels[i] == j;
        assert labels[1..][i - 1] == j;
      }
      SumCountsIsSumOver(labels[1..], rest, m);
      SumOverRemove(keys, m, k);
    }
  }

  /** `sum(type_dist.values())`, computed along the sorted labels. */
  function Total(m: map<string, int>): (t: int)
    ensures t == MapSum(m)
  {
    var labels := SortedLabels(m.Keys);
    SortedDistinct(labels);
    SumCountsIsSumOver(labels, m.Keys, m);
    SumCounts(labels, m)
  }

  // ---------------------------------------------------------------------
  // Distribution entries
  // ---------------------------------------------------------------------

  /** One row of the distribution table before formatting. */
  datatype Entry = Entry(kind: string, count: int, percentage: real)

  /** `(count / total * 100) if total > 0 else 0`. */
  function Percentage(count: int, total: int): (p: real)
    ensures total > 0 ==> p * (total as real) == (count as real) * 100.0
    ensures total <= 0 ==> p == 0.0
  {
    if total > 0 then (count as real) / (total as real) * 100.0 else 0.0
  }

  function EntriesOf(labels: seq<string>, m: map<string, int>, total: int): (es: seq<Entry>)
    requires forall i :: 0 <= i < |labels| ==> labels[i] in m
    ensures |es| == |labels|
    ensures forall i :: 0 <= i < |es| ==>
      es[i] == Entry(labels[i], m[labels[i]], Percentage(m[labels[i]], total))
  {
    if |labels| == 0 then []
    else [Entry(labels[0], m[labels[0]], Percentage(m[labels[0]], total))]
         + EntriesOf(labels[1..], m, total)
  }

  /** The labels of the entries, in entry order. */
  function Kinds(es: seq<Entry>): (ks: seq<string>)
    ensures |ks| == |es|
    ensures forall i :: 0 <= i < |es| ==> ks[i] == es[i].kind
  {
    seq(|es|, i requires 0 <= i < |es| => es[i].kind)
  }

  /** Entries built along a listing carry exactly that listing's labels. */
  lemma EntriesOfKinds(labels: seq<string>, m: map<string, int>, total: int)
    requires forall i :: 0 <= i < |labels| ==> labels[i] in m
    ensures Kinds(EntriesOf(labels, m, total)) == labels
  {
  }

  /** The rows of the distribution table: one per equipment type, in
      ascending label order, each with its count and its share of the sum
      of all counts. */
  function Entries(m: map<string, int>): (es: seq<Entry>)
    ensures |es| == |m|
    ensures StrictlySorted(Kinds(es))
    ensures forall k :: k in m <==> k in Kinds(es)
    ensures forall i :: 0 <= i < |es| ==>
      es[i].kind in m && es[i].count == m[es[i].kind]
      && es[i].percentage == Percentage(es[i].count, MapSum(m))
  {
    var labels := SortedLabels(m.Keys);
    EntriesOfKinds(labels, m, Total(m));
    EntriesOf(labels, m, Total(m))
  }

  function SumPercentages(es: seq<Entry>): real {
    if |es| == 0 then 0.0 else es[0].percentage + SumPercentages(es[1..])
  }

  lemma {:induction false} SumPercentagesOf(labels: seq<string>, m: map<string, int>, total: int)
    requires forall i :: 0 <= i < |labels| ==> labels[i] in m
    requires total > 0
    ensures SumPercentages(EntriesOf(labels, m, total))
         == (SumCounts(labels, m) as real) / (total as real) * 100.0
  {
    if |labels| != 0 {
      var es := EntriesOf(labels, m, total);
      assert es[1..] == EntriesOf(labels[1..], m, total);
      SumPercentagesOf(labels[1..], m, total);
      var c := m[labels[0]] as real;
      var rest := SumCounts(labels[1..], m) as real;
      var t := total as real;
      assert c / t * 100.0 + rest / t * 100.0 == (c + rest) / t * 100.0;
    }
  }

  lemma WholeIsHundredPercent(t: int)
    requires t > 0
    ensures (t as real) / (t as real) * 100.0 == 100.0
  {
  }

  /** When the counts add up to a positive number the shares add up to
      exactly 100; otherwise every share is 0 and nothing is divided. */
  lemma PercentagesSum(m: map<string, int>)
    ensures MapSum(m) > 0 ==> SumPercentages(Entries(m)) == 100.0
    ensures MapSum(m) <= 0 ==> forall i :: 0 <= i < |Entries(m)| ==> Entries(m)[i].percentage == 0.0
  {
    var labels := SortedLabels(m.Keys);
    var t := Total(m);
    assert Entries(m) == EntriesOf(labels, m, t);
    if t > 0 {
      assert SumPercentages(EntriesOf(labels, m, t)) == 100.0 by {
        SumPercentagesOf(labels, m, t);
        WholeIsHundredPercent(t);
      }
    }
  }
}

=== FILE: sections.dfy ===
/** The sections of the detailed report, each a short list of blocks, in
    the order the endpoint appends them. Table cells are built here: the
    table itself only lays them out. */
module Sections {

  import opened Wrappers
  import opened Sequences
  import opened Strings
  import opened Clock
  import opened Document
  import opened Metrics
  import opened Inputs
  import opened Wording

  // ---------------------------------------------------------------------
  // Section titles, in report order
  // ---------------------------------------------------------------------

  const SummaryTitle: string := "Executive Summary"
  const MetricsTitle: string := "Key Performance Metrics"
  const DistributionTitle: string := "Equipment Distribution Analysis"
  const AnalysisTitle: string := "Detailed Technical Analysis"
  const HistoryTitle: string := "Historical Upload Analysis"
  const RecommendationsTitle: string := "Recommendations"
  const AppendixTitle: string := "Appendix: Raw Data"

  // ---------------------------------------------------------------------
  // Title page
  // ---------------------------------------------------------------------

  const ProductVersion: string := "ChemViz Systems v2.0.5"

  /** The metadata line: the generation time after "Generated:", the
      preparer after "Prepared by:", then the product version. */
  function MetadataBlock(stamp: string, username: string): (b: Block)
    ensures b.Paragraph? && b.style == Metadata
    ensures var sp := b.spans;
      |sp| == 7 && sp[0] == Bold("Generated:") && sp[1] == Text(" " + stamp)
      && sp[3] == Bold("Prepared by:") && sp[4] == Text(" " + username) && sp[6] == Text(ProductVersion)
  {
    Paragraph(Metadata, [
      Bold("Generated:"), Text(" " + stamp), LineBreak,
      Bold("Prepared by:"), Text(" " + username), LineBreak,
      Text(ProductVersion)])
  }

  /** The title page: icon, product name, subtitle, and the metadata line
      with the generation time and the preparer, each after its label. */
  function CoverPage(username: string, generatedAt: Instant): (page: seq<Block>)
    requires Valid(generatedAt)
    ensures PageBreak !in page && Headings(page) == [] && AllWellFormed(page)
    ensures |page| > 0 && Last(page) == MetadataBlock(GeneratedStamp(generatedAt), username)
  {
    var page := [
      Spacer(50),
      Paragraph(Icon, [Text("⚗️")]),
      Spacer(20),
      Paragraph(Title, [Text("CHEMVIZ")]),
      Paragraph(Subtitle, [Text("Equipment Analysis Report")]),
      Spacer(30),
      MetadataBlock(GeneratedStamp(generatedAt), username)
    ];
    HeadingsNone(page);
    page
  }

  // ---------------------------------------------------------------------
  // Executive summary and key metrics
  // ---------------------------------------------------------------------

  function ExecutiveSummary(totalEquipment: int): (blocks: seq<Block>)
    ensures IsSection(blocks, SummaryTitle) && AllWellFormed(blocks)
    ensures |blocks| == 3
  {
    [ HeadingBlock(SummaryTitle),
      Paragraph(Body, [Stock(SummaryLead), Text(IntToString(totalEquipment)), Stock(SummaryTail)]),
      Spacer(20) ]
  }

  /** The summary paragraph names the equipment count, readable back as
      the number, between its two fixed sentences. */
  lemma ExecutiveSummaryShowsTotal(totalEquipment: int)
    ensures var p := ExecutiveSummary(totalEquipment)[1];
      p.Paragraph? && |p.spans| == 3
      && p.spans[0] == Stock(SummaryLead) && p.spans[2] == Stock(SummaryTail)
      && p.spans[1].Text? && IsIntText(p.spans[1].s)
      && ParseInt(p.spans[1].s) == totalEquipment
  {
    IntToStringRoundTrip(totalEquipment);
  }

  const MetricsHeader: seq<string> := ["Metric", "Value", "Status"]
  const MetricLabels: seq<string> :=
    ["Total Equipment", "Average Flowrate", "Average Temperature", "Average Pressure"]
  const MetricStatuses: seq<string> :=
    ["✓ Operational", "↑ Stable", "→ Normal", "✓ Optimal"]

  /** The Key Metrics table: exactly four rows whose labels and status
      strings are fixed, whatever the data; only the value column carries
      the summary. */
  function MetricsTable(s: Summary): (b: Block)
    ensures b.Table? && b.header == MetricsHeader && |b.rows| == 4 && WellFormed(b)
    ensures forall i :: 0 <= i < 4 ==>
      b.rows[i][0] == [Text(MetricLabels[i])] && b.rows[i][2] == [Text(MetricStatuses[i])]
    ensures b.rows[0][1] == [Text(IntToString(s.totalEquipment))]
    ensures b.rows[1][1] == [Fixed(s.avgFlowrate, 2), Text(" L/min")]
    ensures b.rows[2][1] == [Fixed(s.avgTemperature, 2), Text("°C")]
    ensures b.rows[3][1] == [Fixed(s.avgPressure, 2), Text(" PSI")]
  {
    Table(MetricsHeader, [
      [[Text("Total Equipment")], [Text(IntToString(s.totalEquipment))], [Text("✓ Operational")]],
      [[Text("Average Flowrate")], [Fixed(s.avgFlowrate, 2), Text(" L/min")], [Text("↑ Stable")]],
      [[Text("Average Temperature")], [Fixed(s.avgTemperature, 2), Text("°C")], [Text("→ Normal")]],
      [[Text("Average Pressure")], [Fixed(s.avgPressure, 2), Text(" PSI")], [Text("✓ Optimal")]]
    ])
  }

  /** The metrics section is its heading, the metrics table and a spacer. */
  function KeyMetrics(s: Summary): (blocks: seq<Block>)
    ensures IsSection(blocks, MetricsTitle) && AllWellFormed(blocks)
    ensures |blocks| == 3 && blocks[1] == MetricsTable(s)
  {
    [HeadingBlock(MetricsTitle), MetricsTable(s), Spacer(20)]
  }

  // ---------------------------------------------------------------------
  // Equipment distribution
  // ---------------------------------------------------------------------

  const DistributionHeader: seq<string> := ["Equipment Type", "Count", "Percentage"]

  /** `[str(equip_type), str(count), f"{percentage:.1f}%"]`. */
  function DistributionRow(e: Entry): seq<Cell> {
    [[Text(e.kind)], [Text(IntToString(e.count))], [Fixed(e.percentage, 1), Text("%")]]
  }

  /** One formatted row per distribution entry, in entry order. */
  function DistributionRows(es: seq<Entry>): (rows: seq<seq<Cell>>)
    ensures |rows| == |es|
    ensures forall i :: 0 <= i < |rows| ==> rows[i] == DistributionRow(es[i])
  {
    if |es| == 0 then [] else [DistributionRow(es[0])] + DistributionRows(es[1..])
  }

  /** The distribution table: the header, then one row per entry. */
  function DistributionTable(m: map<string, int>): (t: Block)
    ensures t.Table? && t.header == DistributionHeader && |t.rows| == |m| && WellFormed(t)
  {
    Table(DistributionHeader, DistributionRows(Entries(m)))
  }

  /** An introductory sentence, a well-formed table and a spacer. */
  function TableBody(intro: Phrase, t: Block, gap: nat): (blocks: seq<Block>)
    requires t.Table? && WellFormed(t)
    ensures Plain(blocks) && AllWellFormed(blocks)
    ensures |blocks| == 3 && blocks[1] == t
  {
    [Paragraph(Body, [Stock(intro)]), t, Spacer(gap)]
  }

  /** What follows the distribution heading: a table when any type was
      counted, the fallback sentence otherwise, then a spacer. */
  function DistributionBody(m: map<string, int>): (blocks: seq<Block>)
    ensures Plain(blocks) && AllWellFormed(blocks)
  {
    if |m| > 0
    then TableBody(DistributionIntro, DistributionTable(m), 20)
    else [Paragraph(Body, [Stock(NoDistribution)]), Spacer(20)]
  }

  /** The distribution section. */
  function Distribution(m: map<string, int>): (blocks: seq<Block>)
    ensures IsSection(blocks, DistributionTitle) && AllWellFormed(blocks)
  {
    MakeSection(DistributionTitle, DistributionBody(m));
    AllWellFormedAppend([HeadingBlock(DistributionTitle)], DistributionBody(m));
    [HeadingBlock(DistributionTitle)] + DistributionBody(m)
  }

  // ---------------------------------------------------------------------
  // Detailed technical analysis
  // ---------------------------------------------------------------------

  /** The estimated peak flowrate, `avg_flowrate * 1.2` (exact here): a
      fifth above the average. */
  function PeakFlowrate(avgFlowrate: real): (peak: real)
    ensures peak - avgFlowrate == avgFlowrate / 5.0
  {
    avgFlowrate * 1.2
  }

  /** The pressure paragraph, which closes the second page. */
  function PressureParagraph(avgPressure: real): Block {
    Paragraph(Body, [Bold("Average Pressure:"), Text(" "), Fixed(avgPressure, 2), Text(" PSI"),
                     LineBreak, LineBreak, Bold("Analysis:"), Stock(PressureAnalysis)])
  }

  function TechnicalAnalysis(s: Summary): (blocks: seq<Block>)
    ensures IsSection(blocks, AnalysisTitle) && AllWellFormed(blocks)
    ensures Last(blocks) == PressureParagraph(s.avgPressure)
    ensures |blocks| == 9
  {
    [ HeadingBlock(AnalysisTitle),
      Paragraph(Subheading, [Text("Flowrate Analysis")]),
      Paragraph(Body, [
        Bold("Average Flowrate:"), Text(" "), Fixed(s.avgFlowrate, 2), Text(" L/min"), LineBreak,
        Bold("Peak Flowrate (Estimated):"), Text(" "), Fixed(PeakFlowrate(s.avgFlowrate), 2), Text(" L/min"),
        LineBreak, LineBreak, Bold("Analysis:"), Stock(FlowrateAnalysis)]),
      Spacer(10),
      Paragraph(Subheading, [Text("Temperature Analysis")]),
      Paragraph(Body, [
        Bold("Average Temperature:"), Text(" "), Fixed(s.avgTemperature, 2), Text("°C"),
        LineBreak, LineBreak, Bold("Analysis:"), Stock(TemperatureAnalysis)]),
      Spacer(10),
      Paragraph(Subheading, [Text("Pressure Analysis")]),
      PressureParagraph(s.avgPressure) ]
  }

  /** The flowrate subsection shows the average and the estimated peak. */
  lemma FlowrateFigures(s: Summary)
    ensures var blocks := TechnicalAnalysis(s);
      blocks[1] == Paragraph(Subheading, [Text("Flowrate Analysis")])
      && blocks[2].Paragraph? && |blocks[2].spans| > 7
      && blocks[2].spans[0] == Bold("Average Flowrate:") && blocks[2].spans[2] == Fixed(s.avgFlowrate, 2)
      && blocks[2].spans[5] == Bold("Peak Flowrate (Estimated):")
      && blocks[2].spans[7] == Fixed(PeakFlowrate(s.avgFlowrate), 2)
  {
  }

  /** The temperature subsection shows the average temperature. */
  lemma TemperatureFigures(s: Summary)
    ensures var blocks := TechnicalAnalysis(s);
      blocks[4] == Paragraph(Subheading, [Text("Temperature Analysis")])
      && blocks[5].Paragraph? && |blocks[5].spans| > 2
      && blocks[5].spans[0] == Bold("Average Temperature:") && blocks[5].spans[2] == Fixed(s.avgTemperature, 2)
  {
  }

  /** The pressure subsection, last in the section, shows the average
      pressure. */
  lemma PressureFigures(s: Summary)
    ensures var blocks := TechnicalAnalysis(s);
      blocks[7] == Paragraph(Subheading, [Text("Pressure Analysis")])
      && blocks[8].Paragraph? && |blocks[8].spans| > 2
      && blocks[8].spans[0] == Bold("Average Pressure:") && blocks[8].spans[2] == Fixed(s.avgPressure, 2)
  {
  }

  // ---------------------------------------------------------------------
  // Historical trends
  // ---------------------------------------------------------------------

  const HistoryCap: nat := 10
  const HistoryHeader: seq<string> := ["Timestamp", "Equipment", "Flowrate", "Pressure", "Temperature"]
  /** One history table row; note the Pressure column precedes Temperature. */
  function HistoryRow(item: HistoryRecord): (row: seq<Cell>)
    ensures |row| == |HistoryHeader|
    ensures item.time.None? ==> row[0] == [Text("N/A")]
    ensures item.time.Some? ==> row[0] == [Text(item.time.value)]
    ensures item.totalEquipment.None? ==> row[1] == [Text("0")]
    ensures item.totalEquipment.Some? ==> row[1] == [Text(IntToString(item.totalEquipment.value))]
    ensures item.avgFlowrate.None? ==> row[2] == [Fixed(0.0, 2)]
    ensures item.avgFlowrate.Some? ==> row[2] == [Fixed(item.avgFlowrate.value, 2)]
    ensures item.avgPressure.None? ==> row[3] == [Fixed(0.0, 2)]
    ensures item.avgPressure.Some? ==> row[3] == [Fixed(item.avgPressure.value, 2)]
    ensures item.avgTemperature.None? ==> row[4] == [Fixed(0.0, 2)]
    ensures item.avgTemperature.Some? ==> row[4] == [Fixed(item.avgTemperature.value, 2)]
  {
    assert IntToString(0) == "0" by {
      assert FixedDigits(0, 1) == FixedDigits(0, 0) + [DigitChar(0)];
    }
    [ [Text(item.time.GetOr("N/A"))],
      [Text(IntToString(item.totalEquipment.GetOr(0)))],
      [Fixed(item.avgFlowrate.GetOr(0.0), 2)],
      [Fixed(item.avgPressure.GetOr(0.0), 2)],
      [Fixed(item.avgTemperature.GetOr(0.0), 2)] ]
  }

  /** `for item in history[:10]`: the rows of the first ten records, in the
      order given. */
  function HistoryRows(history: seq<HistoryRecord>): (rows: seq<seq<Cell>>)
    ensures |rows| == if |history| < HistoryCap then |history| else HistoryCap
    ensures forall i :: 0 <= i < |rows| ==> rows[i] == HistoryRow(history[i])
  {
    var shown := Take(history, HistoryCap);
    seq(|shown|, i requires 0 <= i < |shown| => HistoryRow(shown[i]))
  }

  function HistoryIntro(count: nat): Block {
    Paragraph(Body, [Text("Analysis based on "), Text(NatToString(count)), Text(" historical data uploads:")])
  }

  const TrendParagraph: Block := Paragraph(Body, [Bold("Trend Analysis:"), LineBreak, Stock(TrendAnalysis)])

  function HistoricalTrends(history: seq<HistoryRecord>): (blocks: seq<Block>)
    ensures IsSection(blocks, HistoryTitle) && AllWellFormed(blocks)
  {
    [HeadingBlock(HistoryTitle)]
    + (if |history| > 0
       then [HistoryIntro(|history|),
             Table(HistoryHeader, HistoryRows(history)),
             Spacer(15),
             TrendParagraph]
       else [Paragraph(Body, [Stock(NoHistory)])])
    + [Spacer(20)]
  }

  // ---------------------------------------------------------------------
  // Recommendations
  // ---------------------------------------------------------------------

  /** `f"{i}. {rec}" for i, rec in enumerate(items, start)`: each item
      preceded by its position counted from `start`. */
  function Numbered(items: seq<Phrase>, start: nat): (lines: seq<seq<Span>>)
    ensures |lines| == |items|
    ensures forall i :: 0 <= i < |items| ==> lines[i] == [Text(NatToString(start + i) + ". "), Stock(items[i])]
  {
    if |items| == 0 then []
    else [[Text(NatToString(start) + ". "), Stock(items[0])]] + Numbered(items[1..], start + 1)
  }

  function BodyParagraphs(lines: seq<seq<Span>>): (blocks: seq<Block>)
    ensures |blocks| == |lines|
    ensures forall i :: 0 <= i < |lines| ==> blocks[i] == Paragraph(Body, lines[i])
  {
    seq(|lines|, i requires 0 <= i < |lines| => Paragraph(Body, lines[i]))
  }

  function Recommendations(): (blocks: seq<Block>)
    ensures IsSection(blocks, RecommendationsTitle) && AllWellFormed(blocks)
  {
    [HeadingBlock(RecommendationsTitle)] + BodyParagraphs(Numbered(RecommendationList, 1))
  }

  // ---------------------------------------------------------------------
  // Raw data appendix and footer
  // ---------------------------------------------------------------------

  const AppendixLineCap: nat := 50

  /** `json_text.split('\n')[:50]`. */
  function AppendixSourceLines(json: string): (lines: seq<string>)
    ensures |lines| == if Count(json, '\n') < AppendixLineCap then Count(json, '\n') + 1 else AppendixLineCap
    ensures lines <= Split(json, '\n')
  {
    SplitLength(json, '\n');
    Take(Split(json, '\n'), AppendixLineCap)
  }

  /** One monospaced paragraph per kept line, its spaces made non-breaking. */
  function AppendixLines(json: string): (blocks: seq<Block>)
    ensures |blocks| == |AppendixSourceLines(json)|
    ensures forall i :: 0 <= i < |blocks| ==>
      blocks[i] == Paragraph(Code, [Text(ReplaceSpaces(AppendixSourceLines(json)[i]))])
  {
    var lines := AppendixSourceLines(json);
    seq(|lines|, i requires 0 <= i < |lines| => Paragraph(Code, [Text(ReplaceSpaces(lines[i]))]))
  }

  const FooterBlock: Block := Paragraph(Metadata, [
    Text("—— End of Report ——"), LineBreak,
    Muted("ChemViz Systems • Industrial Equipment Analytics Portal")])

  /** The appendix: heading, caption, the code paragraphs of the kept
      lines, a spacer and the footer. */
  function Appendix(json: string): (blocks: seq<Block>)
    ensures IsSection(blocks, AppendixTitle) && AllWellFormed(blocks)
    ensures Last(blocks) == FooterBlock
    ensures |blocks| == |AppendixLines(json)| + 4 && blocks[2..|blocks| - 2] == AppendixLines(json)
  {
    [HeadingBlock(AppendixTitle), Paragraph(Body, [Bold("Complete JSON Output:")])]
    + AppendixLines(json)
    + [Spacer(30), FooterBlock]
  }

  // ---------------------------------------------------------------------
  // Facts about whole sections
  // ---------------------------------------------------------------------

  predicate HasTable(blocks: seq<Block>) {
    exists i :: 0 <= i < |blocks| && blocks[i].Table?
  }

  /** Without types the fallback sentence stands between the heading and
      the spacer. */
  lemma DistributionFallback(m: map<string, int>)
    requires |m| == 0
    ensures Distribution(m) == [HeadingBlock(DistributionTitle), Paragraph(Body, [Stock(NoDistribution)]), Spacer(20)]
  {
  }

  /** The distribution section holds a table exactly when some type was
      counted. */
  lemma DistributionSection(m: map<string, int>)
    ensures HasTable(Distribution(m)) <==> |m| > 0
    ensures |m| > 0 ==> Distribution(m)[2] == DistributionTable(m)
  {
  }

  /** Each row of the distribution table shows one type with its own count
      and its share of the sum of all counts. */
  lemma DistributionRowCells(m: map<string, int>)
    ensures var rows := DistributionTable(m).rows;
      forall i :: 0 <= i < |rows| ==>
        Entries(m)[i].kind in m && rows[i][0] == [Text(Entries(m)[i].kind)]
        && rows[i][1] == [Text(IntToString(m[Entries(m)[i].kind]))]
        && rows[i][2] == [Fixed(Percentage(m[Entries(m)[i].kind], MapSum(m)), 1), Text("%")]
  {
  }

  /** The rows of the distribution table are in ascending label order. */
  lemma DistributionRowsSorted(m: map<string, int>)
    ensures var rows := DistributionTable(m).rows;
      forall i, j :: 0 <= i < j < |rows| ==>
        rows[i][0] == [Text(Entries(m)[i].kind)] && rows[j][0] == [Text(Entries(m)[j].kind)]
        && Less(Entries(m)[i].kind, Entries(m)[j].kind)
  {
  }

  /** A label of the entries labels one of their formatted rows. */
  lemma RowFor(es: seq<Entry>, rows: seq<seq<Cell>>, k: string)
    requires rows == DistributionRows(es)
    requires k in Kinds(es)
    ensures exists i :: 0 <= i < |rows| && rows[i][0] == [Text(k)]
  {
    var i :| 0 <= i < |es| && Kinds(es)[i] == k;
    assert rows[i][0] == [Text(k)];
  }

  /** Every counted type has a row in the distribution table. */
  lemma DistributionRowsCover(m: map<string, int>)
    ensures var rows := DistributionTable(m).rows;
      forall k :: k in m ==> exists i :: 0 <= i < |rows| && rows[i][0] == [Text(k)]
  {
    var es := Entries(m);
    forall k | k in m
      ensures exists i :: 0 <= i < |DistributionTable(m).rows| && DistributionTable(m).rows[i][0] == [Text(k)]
    {
      RowFor(es, DistributionTable(m).rows, k);
    }
  }

  /** The history section holds a table exactly when some upload is
      listed. Its introduction counts every upload, while the table shows
      the first ten records only, in the order given, and the trend
      paragraph follows; without uploads the fallback sentence alone stands
      between the heading and the spacer. */
  lemma HistorySection(history: seq<HistoryRecord>)
    ensures HasTable(HistoricalTrends(history)) <==> |history| > 0
    ensures |history| == 0 ==>
      HistoricalTrends(history) == [HeadingBlock(HistoryTitle), Paragraph(Body, [Stock(NoHistory)]), Spacer(20)]
    ensures |history| > 0 ==>
      var h := HistoricalTrends(history);
      |h| == 6 && h[3] == Spacer(15) && h[4] == TrendParagraph && h[5] == Spacer(20)
      && h[1].Paragraph? && |h[1].spans| == 3 && h[1].spans[1].Text?
      && h[1].spans[0] == Text("Analysis based on ") && h[1].spans[2] == Text(" historical data uploads:")
      && AllDigits(h[1].spans[1].s) && ParseInt(h[1].spans[1].s) == |history|
      && h[2].Table? && h[2].header == HistoryHeader && WellFormed(h[2])
      && |h[2].rows| == (if |history| < HistoryCap then |history| else HistoryCap)
      && (forall i :: 0 <= i < |h[2].rows| ==> h[2].rows[i] == HistoryRow(history[i]))
  {
    var h := HistoricalTrends(history);
    if |history| > 0 {
      assert h[1] == HistoryIntro(|history|);
      NatToStringShape(|history|);
      IntToStringRoundTrip(|history|);
      assert h[2] == Table(HistoryHeader, HistoryRows(history));
    } else {
      assert h[1] == Paragraph(Body, [Stock(NoHistory)]);
      forall i | 0 <= i < |h|
        ensures !h[i].Table?
      {
      }
    }
  }

  /** A single digit is written as itself. */
  lemma SingleDigit(n: nat)
    requires n < 10
    ensures NatToString(n) == [DigitChar(n)]
  {
    assert FixedDigits(n, 1) == FixedDigits(n / 10, 0) + [DigitChar(n % 10)];
  }

  /** The recommendations are five paragraphs numbered "1. " to "5. " in
      list order. */
  lemma RecommendationsNumbered()
    ensures |Recommendations()| == 1 + |RecommendationList| == 6
    ensures forall i :: 1 <= i <= 5 ==>
      Recommendations()[i] == Paragraph(Body, [Text([DigitChar(i), '.', ' ']), Stock(RecommendationList[i - 1])])
  {
    var lines := Numbered(RecommendationList, 1);
    forall i | 1 <= i <= 5
      ensures Recommendations()[i] == Paragraph(Body, [Text([DigitChar(i), '.', ' ']), Stock(RecommendationList[i - 1])])
    {
      SingleDigit(i);
      assert NatToString(i) + ". " == [DigitChar(i), '.', ' '];
      assert lines[i - 1] == [Text(NatToString(i) + ". "), Stock(RecommendationList[i - 1])];
      assert Recommendations()[i] == BodyParagraphs(lines)[i - 1];
    }
  }

  /** The code paragraphs of the appendix with their entities turned back
      into spaces. */
  function RestoredLines(json: string): (lines: seq<string>)
    ensures |lines| == |AppendixSourceLines(json)|
  {
    var blocks := Appendix(json)[2..|Appendix(json)| - 2];
    seq(|blocks|, i requires 0 <= i < |blocks| => RestoreSpaces(TextOf(blocks[i])))
  }

  /** The appendix is the heading, the caption, one code paragraph per
      kept line (the line with its spaces made non-breaking, so free of
      spaces), a spacer and the footer: nothing marks the lines dropped
      after the fiftieth. */
  lemma AppendixSection(json: string)
    ensures |Appendix(json)| == |AppendixSourceLines(json)| + 4
    ensures Appendix(json)[1] == Paragraph(Body, [Bold("Complete JSON Output:")])
    ensures Appendix(json)[|Appendix(json)| - 2] == Spacer(30)
    ensures forall i :: 0 <= i < |AppendixSourceLines(json)| ==>
      Appendix(json)[i + 2] == Paragraph(Code, [Text(ReplaceSpaces(AppendixSourceLines(json)[i]))])
    ensures forall i :: 2 <= i < |Appendix(json)| - 2 ==>
      Appendix(json)[i].Paragraph? && Appendix(json)[i].style == Code
      && ' ' !in TextOf(Appendix(json)[i])
  {
  }

  /** When the dump has no `&`, the code paragraphs give back exactly the
      first lines of the dump once their entities are turned back into
      spaces. */
  lemma AppendixRestoresLines(json: string)
    requires '&' !in json
    ensures RestoredLines(json) == AppendixSourceLines(json)
  {
    var src := AppendixSourceLines(json);
    SplitElements(json, '\n', '&');
    forall i | 0 <= i < |src|
      ensures RestoredLines(json)[i] == src[i]
    {
      assert src[i] == Split(json, '\n')[i];
      RestoreReplaceSpaces(src[i]);
    }
  }

  /** A dump of at most fifty lines without `&` is recovered whole from the
      appendix by restoring the spaces and joining the lines. */
  lemma AppendixRecoversJson(json: string)
    requires '&' !in json
    requires Count(json, '\n') < AppendixLineCap
    ensures Join(RestoredLines(json), '\n') == json
  {
    AppendixRestoresLines(json);
    SplitLength(json, '\n');
    assert AppendixSourceLines(json) == Split(json, '\n');
    JoinSplit(json, '\n');
  }
}

=== FILE: sequences.dfy ===
/** Generic sequence operations: splitting at a separator (Python's
    `str.split(sep)` for one-element separators), joining, counting and
    prefix slicing (`s[:n]`). The report uses `Split` twice: on characters
    to cut the JSON dump into lines, and on blocks to cut the document into
    pages at its page breaks. */
module Sequences {

  /** Number of occurrences of `x` in `s`. */
  function Count<T(==)>(s: seq<T>, x: T): (n: nat)
    ensures n <= |s|
    ensures n == 0 <==> x !in s
  {
    if |s| == 0 then 0
    else (if s[0] == x then 1 else 0) + Count(s[1..], x)
  }

  /** The maximal separator-free pieces of `s`, in order. Like Python's
      `split`, the empty sequence yields one empty piece and a separator at
      either end yields an empty piece there. */
  function Split<T(==)>(s: seq<T>, sep: T): (parts: seq<seq<T>>)
    ensures |parts| >= 1
    ensures forall i :: 0 <= i < |parts| ==> sep !in parts[i]
    decreases |s|
  {
    if |s| == 0 then [[]]
    else
      var rest := Split(s[1..], sep);
      if s[0] == sep then [[]] + rest
      else [[s[0]] + rest[0]] + rest[1..]
  }

  /** The pieces glued back together with one separator between neighbours
      (Python's `sep.join(parts)`). */
  function Join<T>(parts: seq<seq<T>>, sep: T): (s: seq<T>)
    requires |parts| >= 1
    decreases |parts|
  {
    if |parts| == 1 then parts[0]
    else parts[0] + [sep] + Join(parts[1..], sep)
  }

  /** Joining the pieces of a split gives back the original sequence. */
  lemma {:induction false} JoinSplit<T>(s: seq<T>, sep: T)
    ensures Join(Split(s, sep), sep) == s
    decreases |s|
  {
    if |s| == 0 {
    } else {
      var rest := Split(s[1..], sep);
      JoinSplit(s[1..], sep);
      if s[0] == sep {
        assert ([[]] + rest)[1..] == rest;
      } else if |rest| == 1 {
        assert Join(rest, sep) == rest[0];
      } else {
        var parts := [[s[0]] + rest[0]] + rest[1..];
        assert parts[1..] == rest[1..];
        assert Join(rest, sep) == rest[0] + [sep] + Join(rest[1..], sep);
        assert s == [s[0]] + s[1..];
      }
    }
  }

  /** A separator-free sequence is a single piece. */
  lemma {:induction false} SplitFree<T>(a: seq<T>, sep: T)
    requires sep !in a
    ensures Split(a, sep) == [a]
    decreases |a|
  {
    if |a| != 0 {
      assert sep !in a[1..];
      SplitFree(a[1..], sep);
      assert [a[0]] + a[1..] == a;
    }
  }

  /** A separator-free prefix followed by a separator becomes the first piece. */
  lemma {:induction false} SplitAfterFree<T>(a: seq<T>, sep: T, b: seq<T>)
    requires sep !in a
    ensures Split(a + [sep] + b, sep) == [a] + Split(b, sep)
    decreases |a|
  {
    var s := a + [sep] + b;
    if |a| == 0 {
      assert s == [sep] + b;
      assert s[1..] == b;
    } else {
      assert s[1..] == a[1..] + [sep] + b;
      assert sep !in a[1..];
      SplitAfterFree(a[1..], sep, b);
      assert [a[0]] + a[1..] == a;
    }
  }

  /** Splitting separator-free pieces joined by the separator recovers the
      pieces: `Split` and `Join` are mutually inverse on such pieces. */
  lemma {:induction false} SplitJoin<T>(parts: seq<seq<T>>, sep: T)
    requires |parts| >= 1
    requires forall i :: 0 <= i < |parts| ==> sep !in parts[i]
    ensures Split(Join(parts, sep), sep) == parts
    decreases |parts|
  {
    if |parts| == 1 {
      SplitFree(parts[0], sep);
    } else {
      SplitJoin(parts[1..], sep);
      SplitAfterFree(parts[0], sep, Join(parts[1..], sep));
      assert [parts[0]] + parts[1..] == parts;
    }
  }

  /** A sequence with `k` separators splits into `k + 1` pieces. */
  lemma {:induction false} SplitLength<T>(s: seq<T>, sep: T)
    ensures |Split(s, sep)| == Count(s, sep) + 1
    decreases |s|
  {
    if |s| != 0 {
      SplitLength(s[1..], sep);
    }
  }

  /** Every element of a piece occurs in the split sequence. */
  lemma {:induction false} SplitElements<T>(s: seq<T>, sep: T, x: T)
    requires x !in s
    ensures forall i :: 0 <= i < |Split(s, sep)| ==> x !in Split(s, sep)[i]
    decreases |s|
  {
    if |s| != 0 {
      assert x !in s[1..];
      SplitElements(s[1..], sep, x);
    }
  }

  /** The first `n` elements, or all of `s` when it is shorter (Python's
      `s[:n]` for non-negative `n`). */
  function Take<T>(s: seq<T>, n: nat): (r: seq<T>)
    ensures |r| == if |s| < n then |s| else n
    ensures r <= s
  {
    if |s| <= n then s else s[..n]
  }

  /** A slice inside the middle part of a concatenation is a slice of
      that part. */
  lemma SliceMiddle<T>(a: seq<T>, b: seq<T>, c: seq<T>, i: nat, j: nat)
    requires i <= j <= |b|
    ensures (a + b + c)[|a| + i..|a| + j] == b[i..j]
  {
    assert forall k :: |a| + i <= k < |a| + j ==> (a + b + c)[k] == b[k - |a|];
  }

  /** Consecutive slices at `i <= j <= k` put back together give `s`. */
  lemma Slices4<T>(s: seq<T>, i: nat, j: nat, k: nat)
    requires i <= j <= k <= |s|
    ensures s == s[..i] + s[i..j] + s[j..k] + s[k..]
  {
    assert s[..j] == s[..i] + s[i..j];
    assert s[..k] == s[..j] + s[j..k];
    assert s == s[..k] + s[k..];
  }
}

=== FILE: strings.dfy ===
/** String facts the report relies on: decimal rendering of integers
    (Python's `str(int)` and zero-padded `strftime` fields), Python's
    code-point ordering of strings (used by `sorted`), and the
    space-to-`&nbsp;` substitution applied to the JSON appendix. */
module Strings {

  import opened Sequences

  // ---------------------------------------------------------------------
  // Decimal digits
  // ---------------------------------------------------------------------

  predicate IsDigit(c: char) {
    '0' <= c <= '9'
  }

  predicate AllDigits(s: string) {
    forall i :: 0 <= i < |s| ==> IsDigit(s[i])
  }

  function DigitChar(d: nat): (c: char)
    requires d < 10
    ensures IsDigit(c)
  {
    (('0' as int) + d) as char
  }

  function DigitValue(c: char): (d: nat)
    requires IsDigit(c)
    ensures d < 10 && DigitChar(d) == c
  {
    (c as int) - ('0' as int)
  }

  function Pow10(k: nat): (p: nat)
    ensures p >= 1
  {
    if k == 0 then 1 else 10 * Pow10(k - 1)
  }

  /** The value of a string of decimal digits, most significant first. */
  function DecimalValue(s: string): (v: nat)
    requires AllDigits(s)
    ensures v < Pow10(|s|)
  {
    if |s| == 0 then 0
    else DecimalValue(s[..|s| - 1]) * 10 + DigitValue(s[|s| - 1])
  }

  /** The last `width` decimal digits of `n`, zero-padded on the left (the
      `%02d`-style fields of `strftime`). */
  function FixedDigits(n: nat, width: nat): (s: string)
    ensures |s| == width
    ensures AllDigits(s)
  {
    if width == 0 then ""
    else FixedDigits(n / 10, width - 1) + [DigitChar(n % 10)]
  }

  /** Zero-padded digits read back give the number, when it fits. */
  lemma {:induction false} FixedDigitsValue(n: nat, width: nat)
    requires n < Pow10(width)
    ensures DecimalValue(FixedDigits(n, width)) == n
  {
    if width != 0 {
      var s := FixedDigits(n, width);
      assert s[..width - 1] == FixedDigits(n / 10, width - 1);
      assert n / 10 < Pow10(width - 1);
      FixedDigitsValue(n / 10, width - 1);
    }
  }

  /** Reading a digit string and writing it back at the same width gives the
      same string: zero-padded fields are canonical. */
  lemma {:induction false} DecimalValueFixed(s: string)
    requires AllDigits(s)
    ensures FixedDigits(DecimalValue(s), |s|) == s
  {
    if |s| != 0 {
      var init := s[..|s| - 1];
      var v := DecimalValue(s);
      assert v / 10 == DecimalValue(init);
      assert v % 10 == DigitValue(s[|s| - 1]);
      DecimalValueFixed(init);
      assert init + [s[|s| - 1]] == s;
    }
  }

  /** Number of decimal digits Python's `str` writes for `n`. */
  function NumDigits(n: nat): (k: nat)
    ensures k >= 1
    ensures n < Pow10(k)
  {
    if n < 10 then 1 else 1 + NumDigits(n / 10)
  }

  /** Python's `str(n)` for a non-negative integer. */
  function NatToString(n: nat): string {
    FixedDigits(n, NumDigits(n))
  }

  /** Python's `str(i)` for any integer. */
  function IntToString(i: int): string {
    if i < 0 then "-" + NatToString(-i) else NatToString(i)
  }

  /** An optionally signed string of decimal digits. */
  predicate IsIntText(s: string) {
    (|s| > 0 && s[0] == '-' && AllDigits(s[1..])) || AllDigits(s)
  }

  /** Reads back an optionally signed decimal integer; the inverse of
      `IntToString`. */
  function ParseInt(s: string): (r: int)
    requires IsIntText(s)
  {
    if |s| > 0 && s[0] == '-' then 0 - DecimalValue(s[1..]) as int else DecimalValue(s)
  }

  /** `str(n)` is a non-empty string of digits without a leading zero. */
  lemma {:induction false} NatToStringShape(n: nat)
    ensures |NatToString(n)| >= 1
    ensures AllDigits(NatToString(n))
    ensures |NatToString(n)| > 1 ==> NatToString(n)[0] != '0'
    ensures n < 10 <==> |NatToString(n)| == 1
  {
    if n >= 10 {
      NatToStringShape(n / 10);
      var k := NumDigits(n);
      assert FixedDigits(n, k) == FixedDigits(n / 10, k - 1) + [DigitChar(n % 10)];
    }
  }

  /** `str` on integers is injective, and `ParseInt` inverts it. */
  lemma IntToStringRoundTrip(i: int)
    ensures IsIntText(IntToString(i))
    ensures ParseInt(IntToString(i)) == i
  {
    var n: nat := if i < 0 then -i else i;
    NatToStringShape(n);
    FixedDigitsValue(n, NumDigits(n));
    if i < 0 {
      assert IntToString(i)[1..] == NatToString(n);
    }
  }

  // ---------------------------------------------------------------------
  // Python's ordering of strings
  // ---------------------------------------------------------------------

  /** `a < b` on Python strings: lexicographic by code point, a proper
      prefix coming first. */
  predicate Less(a: string, b: string)
    decreases |a|
  {
    if |a| == 0 then |b| > 0
    else if |b| == 0 then false
    else if a[0] != b[0] then a[0] < b[0]
    else Less(a[1..], b[1..])
  }

  lemma {:induction false} LessIrreflexive(a: string)
    ensures !Less(a, a)
    decreases |a|
  {
    if |a| > 0 {
      LessIrreflexive(a[1..]);
    }
  }

  lemma {:induction false} LessTransitive(a: string, b: string, c: string)
    requires Less(a, b) && Less(b, c)
    ensures Less(a, c)
    decreases |a|
  {
    if |a| > 0 && a[0] == b[0] && b[0] == c[0] {
      LessTransitive(a[1..], b[1..], c[1..]);
    }
  }

  /** Any two distinct strings are ordered one way or the other. */
  lemma {:induction false} LessTotal(a: string, b: string)
    requires a != b
    ensures Less(a, b) || Less(b, a)
    decreases |a|
  {
    if |a| > 0 && |b| > 0 && a[0] == b[0] {
      assert a == [a[0]] + a[1..];
      assert b == [b[0]] + b[1..];
      LessTotal(a[1..], b[1..]);
    }
  }

  lemma LessAsymmetric(a: string, b: string)
    requires Less(a, b)
    ensures !Less(b, a)
  {
    if Less(b, a) {
      LessTransitive(a, b, a);
      LessIrreflexive(a);
    }
  }

  // ---------------------------------------------------------------------
  // The appendix's space substitution
  // ---------------------------------------------------------------------

  const Nbsp: string := "&nbsp;"

  /** What one character of a line becomes. */
  function Substitute(c: char): string {
    if c == ' ' then Nbsp else [c]
  }

  /** Python's `line.replace(' ', '&nbsp;')`: every space becomes the
      non-breaking-space entity, every other character is kept. */
  function ReplaceSpaces(line: string): (r: string)
    ensures ' ' !in r
    ensures |line| == 1 ==> r == (if line[0] == ' ' then Nbsp else line)
  {
    if |line| == 0 then ""
    else Substitute(line[0]) + ReplaceSpaces(line[1..])
  }

  /** Each space grows the line by five characters. */
  lemma {:induction false} ReplaceSpacesLength(line: string)
    ensures |ReplaceSpaces(line)| == |line| + 5 * Count(line, ' ')
    decreases |line|
  {
    if |line| != 0 {
      ReplaceSpacesLength(line[1..]);
    }
  }

  /** The substitution works character by character: a line cut in two
      is substituted piece by piece. With the single-character case of the
      contract this fixes `ReplaceSpaces` on every line. */
  lemma {:induction false} ReplaceSpacesAppend(a: string, b: string)
    ensures ReplaceSpaces(a + b) == ReplaceSpaces(a) + ReplaceSpaces(b)
    decreases |a|
  {
    if |a| == 0 {
      assert a + b == b;
    } else {
      var head := Substitute(a[0]);
      assert (a + b)[0] == a[0];
      assert (a + b)[1..] == a[1..] + b;
      assert ReplaceSpaces(a + b) == head + ReplaceSpaces(a[1..] + b);
      assert ReplaceSpaces(a) == head + ReplaceSpaces(a[1..]);
      ReplaceSpacesAppend(a[1..], b);
      assert head + (ReplaceSpaces(a[1..]) + ReplaceSpaces(b)) == (head + ReplaceSpaces(a[1..])) + ReplaceSpaces(b);
    }
  }

  /** Turns each `&nbsp;` entity back into a space. */
  function RestoreSpaces(s: string): (r: string)
    decreases |s|
  {
    if |s| == 0 then ""
    else if |s| >= 6 && s[..6] == Nbsp then " " + RestoreSpaces(s[6..])
    else [s[0]] + RestoreSpaces(s[1..])
  }

  lemma RestoreEntity(rest: string)
    ensures RestoreSpaces(Nbsp + rest) == " " + RestoreSpaces(rest)
  {
    assert (Nbsp + rest)[..6] == Nbsp;
    assert (Nbsp + rest)[6..] == rest;
  }

  lemma RestoreOther(c: char, rest: string)
    requires c != '&'
    ensures RestoreSpaces([c] + rest) == [c] + RestoreSpaces(rest)
  {
    assert ([c] + rest)[1..] == rest;
    if |[c] + rest| >= 6 {
      assert ([c] + rest)[..6][0] == c;
    }
  }

  /** For a line without `&`, the substitution loses nothing: restoring the
      entities gives the line back. */
  lemma {:induction false} RestoreReplaceSpaces(line: string)
    requires '&' !in line
    ensures RestoreSpaces(ReplaceSpaces(line)) == line
    decreases |line|
  {
    if |line| != 0 {
      var rest := ReplaceSpaces(line[1..]);
      assert '&' !in line[1..];
      RestoreReplaceSpaces(line[1..]);
      if line[0] == ' ' {
        RestoreEntity(rest);
      } else {
        RestoreOther(line[0], rest);
      }
      assert line == [line[0]] + line[1..];
    }
  }
}

=== FILE: wording.dfy ===
/** The fixed sentences of the detailed report. A paragraph refers to a
    sentence by name; `Words` gives its exact wording. Paragraph text in the
    endpoint is written as indented triple-quoted strings whose line breaks
    and indentation the renderer collapses to single spaces; the wording here
    is that collapsed text. */
module Wording {

  datatype Phrase =
    | SummaryLead
    | SummaryTail
    | DistributionIntro
    | NoDistribution
    | FlowrateAnalysis
    | TemperatureAnalysis
    | PressureAnalysis
    | TrendAnalysis
    | NoHistory
    | KeepMonitoring
    | ScheduleMaintenance
    | AutomateAlerts
    | ReviewCooling
    | KeepLogs

  function Words(p: Phrase): string {
    match p
    case SummaryLead =>
      "This report provides a comprehensive analysis of equipment data uploaded to the ChemViz system. "
      + "The analysis covers "
    case SummaryTail =>
      " pieces of equipment with detailed metrics on flowrate, temperature, and pressure measurements. "
      + "The data shows operational patterns and trends that inform maintenance schedules and "
      + "efficiency optimization strategies."
    case DistributionIntro => "The equipment distribution across different types is as follows:"
    case NoDistribution => "No equipment distribution data available."
    case FlowrateAnalysis =>
      " The flowrate measurements indicate stable operation within normal parameters. "
      + "Consistent flowrate suggests proper pump operation and minimal system resistance."
    case TemperatureAnalysis =>
      " Temperature readings are within acceptable operational ranges. "
      + "Monitoring temperature trends helps identify potential cooling system issues "
      + "or equipment stress before they become critical."
    case PressureAnalysis =>
      " Pressure measurements indicate system integrity and proper valve operation. "
      + "Consistent pressure readings suggest minimal leakage and optimal system configuration."
    case TrendAnalysis =>
      "Historical data shows consistent operational patterns with minimal variance. "
      + "This stability indicates well-maintained equipment and effective process control. "
      + "Regular monitoring continues to be recommended for early detection of anomalies."
    case NoHistory => "No historical data available for trend analysis."
    case KeepMonitoring =>
      "Continue regular monitoring of all equipment metrics to establish baseline performance patterns"
    case ScheduleMaintenance =>
      "Schedule preventive maintenance based on flowrate and temperature trend analysis"
    case AutomateAlerts =>
      "Implement automated alerts for metrics falling outside normal operating ranges"
    case ReviewCooling =>
      "Review equipment with consistently high temperature readings for potential cooling system improvements"
    case KeepLogs =>
      "Maintain detailed logs of all maintenance activities for correlation with performance data"
  }

  /** The recommendations, in the order the report lists them. */
  const RecommendationList: seq<Phrase> :=
    [KeepMonitoring, ScheduleMaintenance, AutomateAlerts, ReviewCooling, KeepLogs]
}

=== FILE: wrappers.dfy ===
/** An optional value: `None` stands for a key that is absent from a JSON
    request body, `Some(v)` for a key that is present with value `v`. */
module Wrappers {

  datatype Option<+T> = None | Some(value: T) {

    /** The value if present, otherwise `default` -- the behaviour of
        Python's `dict.get(key, default)`. */
    function GetOr(default: T): (r: T)
      ensures Some? ==> r == value
      ensures None? ==> r == default
    {
      match this
      case Some(v) => v
      case None => default
    }
  }
}
